=== FILE: README.md ===
# UI-thread performance counters, command-line parser and Win32 value types

This project models, in Dafny, the following parts of the Microsoft.DwayneNeed library and proves properties about them:

- **`UIThreadPerfCounters` and `UIThreadPerfSample`.** This is a sampler hooked to the WPF rendering event.
  - Every rendering pass whose time stamp is later than the last accepted one records a one-frame sample in a fixed-length window. The window starts with ten slots; the oldest slot is dropped and the new sample is appended.
  - After each recorded sample, the sampler scans the window for the earliest and latest samples. It recomputes FPS and the process and idle CPU cycle deltas from them, and raises property-change notifications for every value that changed.
- **`CommandLineParser.Parse`.** It maps `name=value` arguments to the properties that carry a command-line parameter attribute. It fails with a usage exception whose message is the usage line that `ThrowUsageException` builds.
- **HWND equality.** This covers `==`, `!=`, `Equals(HWND)`, `Equals(object)` and `GetHashCode`, with null counting as handle 0.
- **`Binary64Significand`.** The constructor checks that only 52 bits are set, and `Fraction` computes the value.
- **`COLORREF`.** It packs red, green and blue into a 32-bit word.

Modules and files:

| file | module | what it holds |
|---|---|---|
| `wrappers.dfy` | `Wrappers` | `Option` and `Result` |
| `perf_sample.dfy` | `PerfSample` | the immutable sample |
| `perf_window.dfy` | `PerfWindow` | the window of optional slots, the push, the min/max scan, and the ordering invariant |
| `perf_counters.dfy` | `PerfCounters` | the counters state, its property setters with their notifications, the rendering handler and the aggregation |
| `perf_properties.dfy` | `PerfProperties` | properties over several calls: validity, fill level after a run of ticks, metrics after a tick, the duplicate-tick guard, a worked scenario |
| `command_line.dfy` | `CommandLine` | argument splitting, the argument loop, the required-parameter check, `Parse`, and the usage line |
| `hwnd.dfy` | `Hwnd` | handle equality and hashing |
| `binary64.dfy` | `Binary64` | the significand |
| `colorref.dfy` | `ColorRef` | the packed colour |

How the native calls are modelled: they become parameters.
- **Rendering handler.** The frame's time stamp, the process cycle count and the per-processor idle cycle counts are arguments of `PerfCounters.Rendering`.
- **Processor count.** The count returned by `GetSystemInfo` is an argument of `PerfCounters.Create`.
- **Event handlers.** Notifications are returned as the list of property names raised, in order, as if one handler were attached.

How the parser is modelled:
- **Bindings.** The reflection that builds the bindings is given as a sequence of `Binding`s, in the order the dictionary enumerates them. Each binding records the parameter name, whether the property is boolean, whether the parameter is required, and its short description.
- **Value parsing.** Each property type's `Parse` method is a function argument that returns `None` when parsing throws.

A window whose earliest and latest samples share one time stamp:
- The FPS division at `UIThreadPerfCounters.cs:227-228` has no guard against a zero span.
- The single sample after construction or a resize therefore sets FPS to the binary64 division-by-zero result, positive infinity, and sets both cycle deltas to 0.
- `PerfProperties.TickIntoEmpty` and `PerfProperties.FirstTickAfterResize` state this behaviour.

## Model

Source paths are relative to the repository root.

| member | source | states |
|---|---|---|
| PerfSample.SampleFieldsRoundTrip | Microsoft.DwayneNeed/Threading/UIThreadPerfSample.cs:11-25 | each getter returns exactly the constructor argument, and a sample is determined by its four getters |
| PerfWindow.ScanStepKeepsInvariant | Microsoft.DwayneNeed/Threading/UIThreadPerfCounters.cs:194-222 | one pass of the loop body keeps the loop's invariant: start and end stay absent exactly while no slot seen so far is filled, a found start stays the first slot of smallest time stamp and a found end the first of largest, now over one slot more, and the frame count grows by the slot's frames |
| PerfWindow.Cleared | Microsoft.DwayneNeed/Threading/UIThreadPerfCounters.cs:57-58 | a resize to n slots leaves n slots, none filled, so the filled count is 0 |
| PerfWindow.Push | Microsoft.DwayneNeed/Threading/UIThreadPerfCounters.cs:172-176 | removing slot 0 and adding the new sample keeps the length; every old slot but the first moves one place forward, and the new sample is last |
| PerfWindow.ScanUpTo | Microsoft.DwayneNeed/Threading/UIThreadPerfCounters.cs:193-223 | after the loop has seen the first n slots: the start/end are absent exactly when none of them is filled; otherwise the start is the first slot of smallest time stamp and the end the first of largest (strict comparisons, so ties keep the earlier slot); the frame count is the frame total of those slots |
| PerfWindow.Scan | Microsoft.DwayneNeed/Threading/UIThreadPerfCounters.cs:185-223 | the same for the whole window: start and end are found exactly when some slot is filled |
| PerfWindow.FirstMinUnique | Microsoft.DwayneNeed/Threading/UIThreadPerfCounters.cs:196-207 | there is at most one "first slot of smallest time stamp", so the start the loop picks is determined by the window |
| PerfWindow.FirstMaxUnique | Microsoft.DwayneNeed/Threading/UIThreadPerfCounters.cs:209-220 | there is at most one "first slot of largest time stamp" |
| PerfWindow.PushKeepsOrdered | Microsoft.DwayneNeed/Threading/UIThreadPerfCounters.cs:157-176 | pushing a one-frame sample stamped later than every sample keeps the filled slots a suffix with strictly increasing time stamps, none later than the new stamp |
| PerfWindow.OrderedScanEnds | Microsoft.DwayneNeed/Threading/UIThreadPerfCounters.cs:193-223 | in an ordered window the scan's start is the first filled slot and its end is the last slot |
| PerfWindow.SingleFramesTotal | Microsoft.DwayneNeed/Threading/UIThreadPerfCounters.cs:222 | when every filled slot covers one frame, the frame total equals the number of filled slots |
| PerfWindow.PushFirstFilled | Microsoft.DwayneNeed/Threading/UIThreadPerfCounters.cs:172-176 | a push into a window with a filled suffix keeps a filled suffix whose first slot is one place earlier (or still slot 0) |
| PerfWindow.PushFilledCount | Microsoft.DwayneNeed/Threading/UIThreadPerfCounters.cs:172-176 | a push into a window whose filled slots form a suffix fills one more slot, up to the window length |
| PerfWindow.PushIntoEmpty | Microsoft.DwayneNeed/Threading/UIThreadPerfCounters.cs:172-176 | a push into an empty window fills only the last slot |
| PerfCounters.FpsOver | Microsoft.DwayneNeed/Threading/UIThreadPerfCounters.cs:227-228 | FPS is frames over the span; over a zero span it is the binary64 result: positive or negative infinity, or NaN for 0/0 |
| PerfCounters.FpsOverValue | Microsoft.DwayneNeed/Threading/UIThreadPerfCounters.cs:228 | the finite FPS value times the span in seconds gives back the frame count |
| PerfCounters.NumberOfSamplesSetGet | Microsoft.DwayneNeed/Threading/UIThreadPerfCounters.cs:47-63 | the getter reads back the value the setter was given, clamped to at least 1; handing the setter the value the getter reads changes nothing and raises nothing |
| PerfCounters.SetNumberOfSamples | Microsoft.DwayneNeed/Threading/UIThreadPerfCounters.cs:51-63 | the length is clamped to at least 1; a different length empties the window and raises "NumberOfSamples" once; the same length changes nothing and raises nothing; no other field changes |
| PerfCounters.Create | Microsoft.DwayneNeed/Threading/UIThreadPerfCounters.cs:15-38 | a new object has ten empty slots, FPS and both cycle times 0, last rendering time `TimeSpan.MinValue`, and the given processor count |
| PerfCounters.MetricNotificationsNames | Microsoft.DwayneNeed/Threading/UIThreadPerfCounters.cs:71-118 | the three metric setters together raise nothing exactly when no metric changed; each metric's own name is raised exactly when it changed, both percentage names exactly when a cycle time changed, and "FPS" comes first |
| PerfCounters.SetFps | Microsoft.DwayneNeed/Threading/UIThreadPerfCounters.cs:69-78 | "FPS" is raised exactly when the new value differs from the old as an exact value (always for NaN); when nothing is raised the stored value equals the old one as a number; the value is stored either way |
| PerfCounters.SetProcessCycleTime | Microsoft.DwayneNeed/Threading/UIThreadPerfCounters.cs:84-98 | on a new value it stores it and raises "ProcessCycleTime", "ProcessCyclePercentage", "IdleCyclePercentage" in that order; otherwise nothing |
| PerfCounters.SetIdleCycleTime | Microsoft.DwayneNeed/Threading/UIThreadPerfCounters.cs:104-118 | on a new value it stores it and raises "IdleCycleTime", "ProcessCyclePercentage", "IdleCyclePercentage" in that order; otherwise nothing |
| PerfCounters.SetMetrics | Microsoft.DwayneNeed/Threading/UIThreadPerfCounters.cs:225-231 | from a start and an end slot: FPS is the window's frame total over the time between them, the cycle times are the end readings minus the start's, and the notifications are those of the setters that saw a new value; the window, last rendering time and processor count are kept |
| PerfCounters.SetMetricsRunsSetters | Microsoft.DwayneNeed/Threading/UIThreadPerfCounters.cs:225-231 | setting the metrics from a start and an end sample is the FPS, process and idle setters run in that order, with FPS over the frame total and the cycle deltas end minus start, and the notifications of the three concatenated |
| PerfCounters.UpdatePerfCounters | Microsoft.DwayneNeed/Threading/UIThreadPerfCounters.cs:183-232 | with every slot empty nothing changes and nothing is raised; otherwise a first slot of smallest and a first of largest time stamp exist, and the result is the metrics set from the first slot of smallest and the first of largest time stamp; the window, the last rendering time and the processor count never change |
| PerfCounters.SumPrepend | Microsoft.DwayneNeed/Threading/UIThreadPerfCounters.cs:169-170 | the idle readings summed front to back, as the loop over processors does, equal the first reading plus the sum of the others |
| PerfCounters.Accept | Microsoft.DwayneNeed/Threading/UIThreadPerfCounters.cs:159-176 | an accepted tick shifts the window by one and appends a one-frame sample holding the tick's time, the process cycles and the idle cycles summed over processors; the tick time becomes the last rendering time; nothing else changes |
| PerfCounters.Rendering | Microsoft.DwayneNeed/Threading/UIThreadPerfCounters.cs:153-181 | a tick not strictly later than the last accepted one changes nothing and raises nothing; a later one is recorded and the metrics recomputed; the window length and processor count are kept |
| PerfCounters.ProcessCyclePercentage | Microsoft.DwayneNeed/Threading/UIThreadPerfCounters.cs:121-134 | with a positive cycle total the percentage times the total is the process cycles; otherwise it is 0 |
| PerfCounters.IdleCyclePercentage | Microsoft.DwayneNeed/Threading/UIThreadPerfCounters.cs:136-149 | with a positive cycle total the percentage times the total is the idle cycles; otherwise it is 0 |
| PerfCounters.PercentagesSumToOne | Microsoft.DwayneNeed/Threading/UIThreadPerfCounters.cs:121-149 | the two percentages add up to 1 when the cycle total is positive and are both 0 otherwise |
| PerfProperties.CreateValid | Microsoft.DwayneNeed/Threading/UIThreadPerfCounters.cs:26-28 | a new object satisfies the window invariant and has no filled slot |
| PerfProperties.SetNumberOfSamplesValid | Microsoft.DwayneNeed/Threading/UIThreadPerfCounters.cs:51-63 | setting the length keeps the invariant, and a resize (the only case that raises) leaves no filled slot |
| PerfProperties.RenderingValid | Microsoft.DwayneNeed/Threading/UIThreadPerfCounters.cs:153-181 | every tick keeps the invariant and the length; an accepted tick fills one more slot, up to the length |
| PerfProperties.UpdateOrdered | Microsoft.DwayneNeed/Threading/UIThreadPerfCounters.cs:183-232 | in an ordered non-empty window the recomputation measures from the first filled slot to the last slot |
| PerfProperties.OrderedSpan | Microsoft.DwayneNeed/Threading/UIThreadPerfCounters.cs:222-227 | in an ordered non-empty window the span from first filled to last slot is non-negative and is zero exactly when one slot is filled; the frame total equals the filled count |
| PerfProperties.PositiveRatePerSecond | Microsoft.DwayneNeed/Threading/UIThreadPerfCounters.cs:228 | positive frames over a positive span is a positive number of frames per second |
| PerfProperties.UpdateMetrics | Microsoft.DwayneNeed/Threading/UIThreadPerfCounters.cs:183-232 | after recomputing an ordered window whose last slot holds the newest sample: FPS is the filled count over the time from the first filled slot to the newest; the cycle times are the newest readings minus the first's; FPS is positive infinity exactly when one slot is filled and a positive rate otherwise |
| PerfProperties.FpsOverFilled | Microsoft.DwayneNeed/Threading/UIThreadPerfCounters.cs:227-228 | FPS over one frame per filled slot is infinite exactly when one slot is filled, and a positive rate otherwise |
| PerfProperties.RenderingMetrics | Microsoft.DwayneNeed/Threading/UIThreadPerfCounters.cs:153-232 | after an accepted tick, FPS is the filled count over the time from the first filled slot to the tick, and the cycle times are the tick's readings minus those of the first filled slot; FPS is positive infinity exactly when the new sample is alone, otherwise a positive rate |
| PerfProperties.AcceptOrdered | Microsoft.DwayneNeed/Threading/UIThreadPerfCounters.cs:157-176 | recording a tick later than the last accepted one keeps the window ordered and puts the new sample in the last slot |
| PerfProperties.StaleTickIgnored | Microsoft.DwayneNeed/Threading/UIThreadPerfCounters.cs:157 | a tick stamped no later than the last accepted one leaves the state unchanged and raises nothing |
| PerfProperties.DuplicateTickIgnored | Microsoft.DwayneNeed/Threading/UIThreadPerfCounters.cs:157-159 | a second tick with the same time stamp as the one just handled is ignored, whatever it reads |
| PerfProperties.ResizeEmpties | Microsoft.DwayneNeed/Threading/UIThreadPerfCounters.cs:55-58 | a resize to a different length keeps the invariant and the last rendering time and leaves no filled slot |
| PerfProperties.TickIntoEmpty | Microsoft.DwayneNeed/Threading/UIThreadPerfCounters.cs:225-231 | a tick into an empty window leaves one filled slot, FPS positive infinity, and both cycle times 0 |
| PerfProperties.AcceptIntoEmpty | Microsoft.DwayneNeed/Threading/UIThreadPerfCounters.cs:172-176 | recording a tick in an empty window fills exactly one slot, holding the new sample |
| PerfProperties.FirstTickAfterResize | Microsoft.DwayneNeed/Threading/UIThreadPerfCounters.cs:225-231 | the first accepted tick after a resize sets FPS to positive infinity and both cycle times to 0 instead of leaving the metrics alone |
| PerfProperties.RunValid | Microsoft.DwayneNeed/Threading/UIThreadPerfCounters.cs:153-181 | any run of ticks keeps the window invariant |
| PerfProperties.RunFilledCount | Microsoft.DwayneNeed/Threading/UIThreadPerfCounters.cs:157-176 | k ticks with strictly increasing time stamps on a window of n slots with m filled leave min(m + k, n) filled |
| PerfProperties.WarmUp | Microsoft.DwayneNeed/Threading/UIThreadPerfCounters.cs:26-28 | from construction, k increasing ticks fill min(k, 10) slots |
| PerfProperties.ScenarioFirstTick | Microsoft.DwayneNeed/Threading/UIThreadPerfCounters.cs:153-181 | the first tick of the worked scenario leaves the window [empty, its sample] |
| PerfProperties.ScenarioSecondTick | Microsoft.DwayneNeed/Threading/UIThreadPerfCounters.cs:183-232 | the second tick, one second later, gives FPS 2 frames over one second and cycle deltas 50 and 950 |
| PerfProperties.TwoSlotScenario | Microsoft.DwayneNeed/Threading/UIThreadPerfCounters.cs:121-232 | two slots, ticks at 0 s and 1 s: FPS is 2.0, the cycle times are 50 and 950, the percentages are 0.05 and 0.95, and a repeated tick at 1 s is dropped |
| PerfProperties.ScenarioValues | Microsoft.DwayneNeed/Threading/UIThreadPerfCounters.cs:121-149 | 2 frames over one second is 2.0 per second; 50 of 1000 cycles is 0.05 and 950 is 0.95 |
| CommandLine.Message | Microsoft.DwayneNeed/Utilities/CommandLineParser.cs:49-90 | an argument failure's text is "Argument '" then the argument's name then the ending of its check (already specified, must provide a value, not expected, is required); a value that does not parse reports the reflection wrapper's fixed text |
| CommandLine.MessageDistinguishes | Microsoft.DwayneNeed/Utilities/CommandLineParser.cs:49-86 | two argument failures with the same text are the same failure: the text tells which check failed and for which argument |
| CommandLine.SplitArg | Microsoft.DwayneNeed/Utilities/CommandLineParser.cs:40-43 | the name has no '='; without a value the name is the whole argument; with one, the argument is name "=" value |
| CommandLine.SplitJoin | Microsoft.DwayneNeed/Utilities/CommandLineParser.cs:40-43 | splitting undoes joining a '='-free name with an optional "=value" |
| CommandLine.Lookup | Microsoft.DwayneNeed/Utilities/CommandLineParser.cs:45-47 | a found binding is one of the bindings and has that name; a miss means no binding has that name |
| CommandLine.LookupUnique | Microsoft.DwayneNeed/Utilities/CommandLineParser.cs:45-47 | with unique names the lookup of a binding's name finds that binding |
| CommandLine.ApplyArg | Microsoft.DwayneNeed/Utilities/CommandLineParser.cs:40-79 | one argument either assigns exactly its own name, a name not assigned before, keeping earlier assignments; or it fails naming itself with: not expected exactly when no binding has its name, already specified exactly when a binding has it and it was assigned, must provide a value only when it has no value, or the value that did not parse |
| CommandLine.ProcessArgs | Microsoft.DwayneNeed/Utilities/CommandLineParser.cs:38-80 | the argument loop never un-assigns a property it was given as assigned |
| CommandLine.FirstMissingRequired | Microsoft.DwayneNeed/Utilities/CommandLineParser.cs:82-86 | nothing is reported exactly when every required binding was assigned; otherwise the name reported is the first required unassigned binding in binding order |
| CommandLine.ApplyArgSucceeds | Microsoft.DwayneNeed/Utilities/CommandLineParser.cs:45-79 | with unique names one argument succeeds exactly when it names a binding, its value parses (or it is a bare boolean flag), and that name was not assigned; it then assigns what its value gives |
| CommandLine.ProcessArgsSucceeds | Microsoft.DwayneNeed/Utilities/CommandLineParser.cs:38-80 | the loop runs to the end exactly when every argument is acceptable and no two arguments, nor an argument and an earlier assignment, share a name |
| CommandLine.ProcessArgsKeys | Microsoft.DwayneNeed/Utilities/CommandLineParser.cs:38-80 | an accepted loop assigns exactly the names of the arguments, plus what was there before, unchanged |
| CommandLine.ProcessArgsValues | Microsoft.DwayneNeed/Utilities/CommandLineParser.cs:53-66 | an accepted loop gives every named property what its own argument supplies: the parsed value, or true for a bare boolean flag |
| CommandLine.ProcessArgsStops | Microsoft.DwayneNeed/Utilities/CommandLineParser.cs:38-80 | a failing loop stops at one argument: the arguments before it all succeeded and their assignments are kept, and that argument fails with the reported error |
| CommandLine.ProcessArgsNeverRequired | Microsoft.DwayneNeed/Utilities/CommandLineParser.cs:45-79 | the argument loop never reports a missing required parameter |
| CommandLine.IsHelp | Microsoft.DwayneNeed/Utilities/CommandLineParser.cs:29-31 | an argument is a help token exactly when it is "?" or "help" after a '/' or a '-' |
| CommandLine.Parse | Microsoft.DwayneNeed/Utilities/CommandLineParser.cs:26-92 | a help token anywhere fails with the usage line, no inner failure and nothing assigned; every failure carries the usage line; a failure without an inner error only comes from a help token |
| CommandLine.ParseWithoutHelp | Microsoft.DwayneNeed/Utilities/CommandLineParser.cs:33-91 | without a help token the parse keeps the loop's assignments and fails on the loop's error, else on the first missing required binding, else succeeds |
| CommandLine.ParseSucceeds | Microsoft.DwayneNeed/Utilities/CommandLineParser.cs:26-92 | a parse succeeds exactly when no argument is a help token, the arguments are accepted, and every required binding is named by an argument |
| CommandLine.ParseAssignments | Microsoft.DwayneNeed/Utilities/CommandLineParser.cs:38-86 | a successful parse assigns exactly the names the arguments give, each from its own argument |
| CommandLine.ParseRequiredFailure | Microsoft.DwayneNeed/Utilities/CommandLineParser.cs:82-86 | a missing-required failure comes after every argument was accepted and assigned, and names the first required binding, in binding order, that no argument names |
| CommandLine.ParseArgumentFailure | Microsoft.DwayneNeed/Utilities/CommandLineParser.cs:38-91 | any other failure comes from one argument, after the arguments before it were all applied |
| CommandLine.Description | Microsoft.DwayneNeed/Utilities/CommandLineParser.cs:108-110 | the value description is the short description when that is not null or blank, and "value" otherwise; it is never blank |
| CommandLine.UsageItem | Microsoft.DwayneNeed/Utilities/CommandLineParser.cs:108-121 | a binding shows as Name=<desc>, with the value part bracketed for a boolean and the whole bracketed when optional; the item is never blank |
| CommandLine.UsageItems | Microsoft.DwayneNeed/Utilities/CommandLineParser.cs:106-121 | one usage item per binding, in binding order |
| CommandLine.JoinNotBlank | Microsoft.DwayneNeed/Utilities/CommandLineParser.cs:123-126 | a join ending in a non-blank item is not blank |
| CommandLine.UsageStep | Microsoft.DwayneNeed/Utilities/CommandLineParser.cs:123-126 | over non-blank items, one step of the usage loop (replace a blank line, else append after one space) extends the space-separated join by one item |
| CommandLine.UsageFromJoin | Microsoft.DwayneNeed/Utilities/CommandLineParser.cs:106-127 | running the usage loop from a join continues that join with the remaining bindings' items |
| CommandLine.UsageIsJoin | Microsoft.DwayneNeed/Utilities/CommandLineParser.cs:101-130 | the usage line `Usage` builds (the loop `UsageFrom` run from an empty line) is the bindings' usage items joined by single spaces |
| Hwnd.OpEq | Microsoft.DwayneNeed/Win32/User32/HWND.cs:116-123 | `==` holds exactly when the handles are equal, a null reference counting as handle 0 |
| Hwnd.OpNe | Microsoft.DwayneNeed/Win32/User32/HWND.cs:125-128 | `!=` holds exactly when those handles differ |
| Hwnd.EqualsHwnd | Microsoft.DwayneNeed/Win32/User32/HWND.cs:104-109 | `Equals(HWND)` agrees with `==` |
| Hwnd.EqualsObjectAsWritten | Microsoft.DwayneNeed/Win32/User32/HWND.cs:96-102 | as written, `Equals(object)` holds for null exactly when the handle is 0, and for an HWND exactly when both handles are equal and non-zero; never for other objects |
| Hwnd.EqualsObjectAsWrittenNotReflexive | Microsoft.DwayneNeed/Win32/User32/HWND.cs:96-102 | `NULL.Equals((object)NULL)` is false although `NULL == NULL` and `NULL.Equals(NULL)` hold |
| Hwnd.EqualsObject | Microsoft.DwayneNeed/Win32/User32/HWND.cs:96-102 | corrected: null equals exactly a handle-0 HWND, an HWND argument compares as `==`, any other object is unequal |
| Hwnd.EqualsObjectAgreesWithOperator | Microsoft.DwayneNeed/Win32/User32/HWND.cs:96-123 | the corrected `Equals(object)` agrees with `==` for every null or HWND argument |
| Hwnd.HashCode | Microsoft.DwayneNeed/Win32/User32/HWND.cs:111-114 | HWNDs that are `Equals` have the same hash code |
| Hwnd.ZeroHandlesEqualNull | Microsoft.DwayneNeed/Win32/User32/HWND.cs:26-36 | NULL, DESKTOP and TOP equal one another and null; BROADCAST, MESSAGE, BOTTOM, TOPMOST and NOTOPMOST do not equal null |
| Hwnd.OpEqIsEquivalence | Microsoft.DwayneNeed/Win32/User32/HWND.cs:116-123 | `==` is reflexive, symmetric and transitive on possibly-null references |
| Binary64.New | Microsoft.DwayneNeed/Numerics/Binary64Significand.cs:10-18 | the constructor throws ArgumentOutOfRange("significand") exactly when a bit at position 52 or above is set, and otherwise stores both arguments |
| Binary64.Fraction | Microsoft.DwayneNeed/Numerics/Binary64Significand.cs:23-33 | the fraction times 2^52 is the stored bits plus 2^52 for a normal number; it lies in [1, 2) for a normal number and [0, 1) for a subnormal one |
| Binary64.ConstructedFraction | Microsoft.DwayneNeed/Numerics/Binary64Significand.cs:10-33 | every accepted significand has a fraction, from which the stored bits are read back |
| ColorRef.FromValue | Microsoft.DwayneNeed/Win32/Gdi32/COLORREF.cs:5-8 | the raw-word constructor keeps the word |
| ColorRef.FromRgb | Microsoft.DwayneNeed/Win32/Gdi32/COLORREF.cs:10-13 | red is in bits 0-7, green in 8-15, blue in 16-23, and the top byte is clear |
| ColorRef.RgbRoundTrip | Microsoft.DwayneNeed/Win32/Gdi32/COLORREF.cs:10-13 | the three bytes read back unchanged from the packed word, which is below 2^24 |
| ColorRef.RgbCoversLowWords | Microsoft.DwayneNeed/Win32/Gdi32/COLORREF.cs:10-15 | every word with a clear top byte is the packing of its own three bytes |

## Left out

- Native queries: `GetSystemInfo`, `QueryProcessCycleTime` and `QueryIdleProcessorCycleTime` are not modelled. Their results are arguments. The idle-cycle buffer always holds one count per processor, so its size argument is not modelled.
- Design-mode check and event subscription: the check of the WPF design mode and the subscription to `CompositionTarget.Rendering` are not modelled. Ticks are fed to `PerfCounters.Rendering` directly, or as a list to `PerfProperties.Run`.
- PerfCounters.Rendering: integers are unbounded. The 64-bit cycle counts, their per-processor sum and the cycle differences never wrap around, as unchecked `long` arithmetic would. The `TimeSpan` subtraction never overflows or throws `OverflowException`. The addition of the two cycle times in `ProcessCyclePercentage` and `IdleCyclePercentage` cannot overflow either.
- PerfCounters.Rendering: the number of idle readings is not tied to the processor count. The source always reads one per processor (`new long[_numberOfProcessors]`); the model sums whatever list it is given.
- PerfCounters.FpsOver: FPS is kept as the exact fraction `frames / span` and not as a rounded binary64 value. Division by zero gives the binary64 results, and inequality compares the exact fractions by cross-multiplication.
- PerfCounters.SetFps: the "FPS" notification follows inequality of the exact fractions, not C# `!=` on the rounded doubles. The two can disagree in both directions: equal fractions such as 2/333336 and 3/500004 ticks can round to different doubles, and different fractions can round to the same double. The setter stores the value even when it is equal, which, as an exact value, is the same number.
- PerfCounters.ProcessCyclePercentage: the percentages are exact reals, with no binary64 rounding.
- Notifications: these are the property names raised, in order. The `PropertyChanged` event with no handler attached, and the event arguments, are not modelled. The constructor's "NumberOfSamples" notification reaches no handler and is dropped.
- `NumberOfProcessors`: the private setter is never called, and the getter is the `numberOfProcessors` field.
- GetParamBindings: the reflection over public static properties and their attributes is given as the `Binding` sequence.
  - The `InvalidOperationException` for a type without a `Parse(string)` method is not modelled.
  - The `ArgumentException` for two attributes with the same name is not modelled. The lemmas that need it assume `UniqueNames`.
  - Dictionary enumeration order is taken to be binding order.
- Value parse failures: the parse method is called through reflection (`ParserMethod.Invoke`), which wraps whatever it throws in a `TargetInvocationException`. That wrapper becomes the usage exception's inner exception. `ValueNotParsed` stands for it, and `CommandLine.Message` gives it the runtime's fixed invocation text, not the parse method's own message.
- Setter failures: the property setters are also called through reflection. A setter that throws, or a property without a public setter (`GetSetMethod()` returns null), fails inside the same `try` block and becomes a usage failure. `CommandLine.ApplyArg` has no such failure: every assignment to a bound property succeeds.
- PrintUsageException: console output is not modelled.
- Property setter invocation: this is modelled as an entry in the returned `assignments` map. Assignments made before a failure stay in the map, as the static properties keep them.
- HWND handle lifetime: `IsInvalid` (`IsWindow`), `ReleaseHandle`, the `SafeHandle` base class and the protected constructors are not modelled.
- Hwnd.HashCode: the runtime's hash of an `IntPtr` is a function argument.
- Binary64.Fraction: the binary64 division is exact for these operands, so the fraction is an exact real.

## Findings

| source | as written | input that shows it | evidently intended | confidence | as-written member | corrected member |
|---|---|---|---|---|---|---|
| Microsoft.DwayneNeed/Win32/User32/HWND.cs:101 | `other != null` calls the overloaded `operator !=`, which treats an HWND with handle 0 as null, so `Equals(object)` rejects such an argument before `Equals(HWND)` runs | `HWND.NULL.Equals((object)HWND.NULL)` is false, while `HWND.NULL == HWND.NULL` and `HWND.NULL.Equals(HWND.NULL)` are true | a reference test (`!ReferenceEquals(other, null)`), making `Equals(object)` agree with `==` and reflexive | high; not executed | Hwnd.EqualsObjectAsWritten, Hwnd.EqualsObjectAsWrittenNotReflexive | Hwnd.EqualsObject, Hwnd.EqualsObjectAgreesWithOperator |

=== FILE: binary64.dfy ===
/**
 * The significand field of an IEEE 754 binary64 value: 52 explicit bits plus
 * a flag saying whether the number is subnormal (no implicit leading 1).
 */
module Binary64 {
  import opened Wrappers

  /** An unsigned 64-bit word. */
  type UInt64 = x: int | 0 <= x < 0x1_0000_0000_0000_0000

  /** 2^52, the weight of the implicit leading bit. */
  const TwoPow52: int := 0x10_0000_0000_0000

  datatype Significand = Significand(value: UInt64, isSubnormal: bool)

  datatype SignificandError = ArgumentOutOfRange(paramName: string)

  /**
   * The bits of a word at positions 52..63, shifted down: the part that
   * survives masking with the complement of 2^52 - 1.
   */
  function HighBits(value: UInt64): nat
  {
    value / TwoPow52
  }

  /**
   * The constructor: it refuses a value with any bit at position 52 or above,
   * and otherwise stores both arguments.
   */
  function New(value: UInt64, isSubnormal: bool): (r: Result<Significand, SignificandError>)
    ensures r.Failure? <==> value >= TwoPow52
    ensures r.Failure? ==> r.error == ArgumentOutOfRange("significand")
    ensures r.Success? ==> r.value.value == value && r.value.isSubnormal == isSubnormal
  {
    if HighBits(value) != 0 then Failure(ArgumentOutOfRange("significand"))
    else Success(Significand(value, isSubnormal))
  }

  /**
   * The exact value of the fraction: the stored bits over 2^52, plus the
   * implicit 1 for a normal number. The numerator stays below 2^53 and the
   * denominator is a power of two, so the division in binary64 is exact.
   */
  function Fraction(s: Significand): (f: real)
    requires s.value < TwoPow52
    ensures f * TwoPow52 as real == (if s.isSubnormal then 0 else TwoPow52) as real + s.value as real
    ensures !s.isSubnormal ==> 1.0 <= f < 2.0
    ensures s.isSubnormal ==> 0.0 <= f < 1.0
  {
    var numerator := s.value + if s.isSubnormal then 0 else TwoPow52;
    numerator as real / TwoPow52 as real
  }

  /**
   * A significand the constructor accepts always has a fraction, and the
   * stored bits can be read back from it.
   */
  lemma ConstructedFraction(value: UInt64, isSubnormal: bool)
    requires New(value, isSubnormal).Success?
    ensures New(value, isSubnormal).value.value < TwoPow52
    ensures var f := Fraction(New(value, isSubnormal).value);
      (if isSubnormal then f else f - 1.0) * TwoPow52 as real == value as real
  {
  }
}

=== FILE: colorref.dfy ===
/**
 * The GDI COLORREF value: a 32-bit word holding red in bits 0-7, green in
 * bits 8-15 and blue in bits 16-23.
 */
module ColorRef {

  type Byte = bv8
  type UInt32 = bv32

  datatype ColorRef = ColorRef(value: UInt32)

  /** The constructor taking a raw word keeps it verbatim. */
  function FromValue(cr: UInt32): (c: ColorRef)
    ensures c.value == cr
  {
    ColorRef(cr)
  }

  /** The constructor taking three bytes packs them as red | green << 8 | blue << 16. */
  function FromRgb(red: Byte, green: Byte, blue: Byte): (c: ColorRef)
    ensures c.value & 0xFF == red as UInt32
    ensures (c.value >> 8) & 0xFF == green as UInt32
    ensures (c.value >> 16) & 0xFF == blue as UInt32
    ensures c.value >> 24 == 0
  {
    ColorRef((red as UInt32) | ((green as UInt32) << 8) | ((blue as UInt32) << 16))
  }

  function Red(c: ColorRef): Byte { (c.value & 0xFF) as Byte }
  function Green(c: ColorRef): Byte { ((c.value >> 8) & 0xFF) as Byte }
  function Blue(c: ColorRef): Byte { ((c.value >> 16) & 0xFF) as Byte }

  /** The three bytes come back out of the packed word unchanged, and the top byte is clear. */
  lemma RgbRoundTrip(red: Byte, green: Byte, blue: Byte)
    ensures Red(FromRgb(red, green, blue)) == red
    ensures Green(FromRgb(red, green, blue)) == green
    ensures Blue(FromRgb(red, green, blue)) == blue
    ensures FromRgb(red, green, blue).value < 0x100_0000
  {
  }

  /** Every word whose top byte is clear is produced by exactly one colour triple. */
  lemma RgbCoversLowWords(c: ColorRef)
    requires c.value >> 24 == 0
    ensures FromRgb(Red(c), Green(c), Blue(c)) == c
  {
  }
}

=== FILE: command_line.dfy ===
/**
 * The command-line parser. Each binding stands for one property marked with
 * a command-line parameter attribute: its parameter name, whether the
 * property is boolean, whether the parameter is required, and its optional
 * short description. Converting a value's text to the property's type is the
 * `parse` function argument (`None` when the type's Parse method throws).
 */
module CommandLine {
  import opened Wrappers

  datatype Binding = Binding(name: string, isBool: bool, isRequired: bool, shortDescription: Option<string>)

  /** What was assigned to a property: `true` for a bare boolean flag, or the parsed value. */
  datatype Assigned<V> = SetTrue | ParsedValue(value: V)

  /** The failures raised while the arguments are processed. */
  datatype ParameterError =
    | NotExpected(name: string)
    | AlreadySpecified(name: string)
    | MustProvideValue(name: string)
    | Required(name: string)
    | ValueNotParsed(name: string, text: string)

  /** The usage exception: the usage line, and the failure that caused it (none for a help request). */
  datatype UsageError = UsageError(usage: string, inner: Option<ParameterError>)

  /**
   * The outcome of a parse: the properties assigned (kept even when the parse
   * fails, since nothing undoes them), and the usage exception if one is thrown.
   */
  datatype ParseResult<V> = ParseResult(assignments: map<string, Assigned<V>>, failure: Option<UsageError>)

  /**
   * The text a value that does not parse reports. The parse method is called
   * by reflection, which wraps whatever it throws in an invocation exception;
   * that wrapper is what the usage exception carries, with the runtime's
   * fixed text.
   */
  const InvocationFailureText: string := "Exception has been thrown by the target of an invocation."

  /** What follows the quoted argument name in the text of each argument failure. */
  function MessageEnding(e: ParameterError): string
    requires !e.ValueNotParsed?
  {
    match e
    case NotExpected(_) => "' was not expected."
    case AlreadySpecified(_) => "' has already been specified."
    case MustProvideValue(_) => "' must provide a value."
    case Required(_) => "' is required."
  }

  /**
   * The text of a parameter failure, as the inner exception reports it: an
   * argument failure quotes the argument's name; a value that does not parse
   * reports the invocation wrapper's text.
   */
  function Message(e: ParameterError): (m: string)
    ensures e.ValueNotParsed? ==> m == InvocationFailureText
    ensures !e.ValueNotParsed? ==>
      && |m| == 10 + |e.name| + |MessageEnding(e)|
      && m[..10] == "Argument '" && m[10..10 + |e.name|] == e.name
      && m[10 + |e.name|..] == MessageEnding(e)
  {
    if e.ValueNotParsed? then InvocationFailureText
    else
      var m := "Argument '" + e.name + MessageEnding(e);
      assert m[..10] == "Argument '";
      assert m[10..10 + |e.name|] == e.name;
      assert m[10 + |e.name|..] == MessageEnding(e);
      m
  }

  /** The last four characters of a string ending in `s`, when `s` has at least four. */
  lemma EndingOf(m: string, s: string, k: nat)
    requires |s| >= 4 && k + |s| == |m| && m[k..] == s
    ensures m[|m| - 4..] == s[|s| - 4..]
  {
    assert m[|m| - 4..] == m[k..][|s| - 4..];
  }

  /**
   * Two argument failures with the same text are the same failure: the text
   * tells which check failed and for which argument.
   */
  lemma MessageDistinguishes(e1: ParameterError, e2: ParameterError)
    requires !e1.ValueNotParsed? && !e2.ValueNotParsed?
    requires Message(e1) == Message(e2)
    ensures e1 == e2
  {
    var m := Message(e1);
    EndingOf(m, MessageEnding(e1), 10 + |e1.name|);
    EndingOf(m, MessageEnding(e2), 10 + |e2.name|);
    assert MessageEnding(e1) == MessageEnding(e2) by {
      var end1, end2 := MessageEnding(e1), MessageEnding(e2);
      assert end1[|end1| - 4..] == end2[|end2| - 4..];
      if e1.NotExpected? { assert end1[|end1| - 4..] == "ted."; }
      else if e1.AlreadySpecified? { assert end1[|end1| - 4..] == "ied."; }
      else if e1.MustProvideValue? { assert end1[|end1| - 4..] == "lue."; }
      else { assert end1[|end1| - 4..] == "red."; }
      if e2.NotExpected? { assert end2[|end2| - 4..] == "ted."; }
      else if e2.AlreadySpecified? { assert end2[|end2| - 4..] == "ied."; }
      else if e2.MustProvideValue? { assert end2[|end2| - 4..] == "lue."; }
      else { assert end2[|end2| - 4..] == "red."; }
    }
    assert |e1.name| == |e2.name|;
    assert e1.name == m[10..10 + |e1.name|] == e2.name;
  }

  // ---------------------------------------------------------------------
  // Splitting one argument

  /**
   * Splits an argument at its first '=': the name is everything before it
   * and the value everything after it (which may contain more '='). Without
   * an '=' the whole argument is the name and there is no value.
   */
  function SplitArg(arg: string): (r: (string, Option<string>))
    ensures '=' !in r.0
    ensures r.1.None? ==> r.0 == arg
    ensures r.1.Some? ==> arg == r.0 + "=" + r.1.value
  {
    if |arg| == 0 then ("", None)
    else if arg[0] == '=' then ("", Some(arg[1..]))
    else
      var rest := SplitArg(arg[1..]);
      assert arg == [arg[0]] + arg[1..];
      ([arg[0]] + rest.0, rest.1)
  }

  /** Splitting undoes joining: a name without '=' followed by "=value" splits back into that name and value. */
  lemma {:induction false} SplitJoin(name: string, value: Option<string>)
    requires '=' !in name
    ensures SplitArg(if value.Some? then name + "=" + value.value else name) == (name, value)
  {
    var arg := if value.Some? then name + "=" + value.value else name;
    if |name| > 0 {
      assert arg[1..] == if value.Some? then name[1..] + "=" + value.value else name[1..];
      assert arg[0] == name[0];
      SplitJoin(name[1..], value);
      assert [name[0]] + name[1..] == name;
    } else if value.Some? {
      assert arg[1..] == value.value;
    }
  }

  function ArgName(arg: string): string { SplitArg(arg).0 }
  function ArgValue(arg: string): Option<string> { SplitArg(arg).1 }

  // ---------------------------------------------------------------------
  // Looking up bindings

  /** Bindings are kept in a dictionary keyed by name, so no two share a name. */
  ghost predicate UniqueNames(bindings: seq<Binding>)
  {
    forall i, j :: 0 <= i < j < |bindings| ==> bindings[i].name != bindings[j].name
  }

  /** The binding registered under `name`, if any. */
  function Lookup(bindings: seq<Binding>, name: string): (r: Option<Binding>)
    ensures r.Some? ==> r.value in bindings && r.value.name == name
    ensures r.None? ==> forall b :: b in bindings ==> b.name != name
  {
    if |bindings| == 0 then None
    else if bindings[0].name == name then Some(bindings[0])
    else Lookup(bindings[1..], name)
  }

  /** With unique names, the lookup finds exactly the binding with that name. */
  lemma LookupUnique(bindings: seq<Binding>, b: Binding)
    requires UniqueNames(bindings) && b in bindings
    ensures Lookup(bindings, b.name) == Some(b)
  {
    var r := Lookup(bindings, b.name);
    var i :| 0 <= i < |bindings| && bindings[i] == b;
    var j :| 0 <= j < |bindings| && bindings[j] == r.value;
    assert i == j;
  }

  // ---------------------------------------------------------------------
  // Processing the arguments

  /**
   * Processes one argument against the properties assigned so far: an
   * unknown name, a name already assigned, a value that does not parse and a
   * bare non-boolean name each fail; otherwise the property is assigned.
   */
  function ApplyArg<V>(bindings: seq<Binding>, parse: (Binding, string) -> Option<V>,
                       assignments: map<string, Assigned<V>>, arg: string): (r: Result<map<string, Assigned<V>>, ParameterError>)
    ensures r.Success? ==> r.value.Keys == assignments.Keys + {ArgName(arg)} && ArgName(arg) !in assignments
    ensures r.Success? ==> forall k :: k in assignments ==> r.value[k] == assignments[k]
    ensures r.Failure? ==> r.error.name == ArgName(arg) && !r.error.Required?
    ensures r == Failure(NotExpected(ArgName(arg))) <==> forall b :: b in bindings ==> b.name != ArgName(arg)
    ensures r == Failure(AlreadySpecified(ArgName(arg))) <==>
      (exists b :: b in bindings && b.name == ArgName(arg)) && ArgName(arg) in assignments
    ensures r.Failure? && r.error.MustProvideValue? ==> ArgValue(arg).None?
    ensures r.Failure? && r.error.ValueNotParsed? ==> ArgValue(arg) == Some(r.error.text)
  {
    var split := SplitArg(arg);
    var name := split.0;
    match Lookup(bindings, name)
    case None => Failure(NotExpected(name))
    case Some(binding) =>
      if name in assignments then Failure(AlreadySpecified(name))
      else if split.1.Some? then
        match parse(binding, split.1.value)
        case Some(v) => Success(assignments[name := ParsedValue(v)])
        case None => Failure(ValueNotParsed(name, split.1.value))
      else if binding.isBool then Success(assignments[name := SetTrue])
      else Failure(MustProvideValue(name))
  }

  /** The assignments made so far, and the failure that stopped the loop, if any. */
  datatype Progress<V> = Progress(assignments: map<string, Assigned<V>>, error: Option<ParameterError>)

  /** The argument loop: each argument in order, stopping at the first failure. */
  function ProcessArgs<V>(bindings: seq<Binding>, parse: (Binding, string) -> Option<V>,
                          assignments: map<string, Assigned<V>>, args: seq<string>): (r: Progress<V>)
    ensures assignments.Keys <= r.assignments.Keys
    decreases |args|
  {
    if |args| == 0 then Progress(assignments, None)
    else
      match ApplyArg(bindings, parse, assignments, args[0])
      case Failure(e) => Progress(assignments, Some(e))
      case Success(next) => ProcessArgs(bindings, parse, next, args[1..])
  }

  /**
   * The first binding, in binding order, that is required and was not
   * assigned; `None` when every required binding was assigned.
   */
  function FirstMissingRequired<V>(bindings: seq<Binding>, assignments: map<string, Assigned<V>>): (r: Option<string>)
    ensures r.None? <==> forall b :: b in bindings && b.isRequired ==> b.name in assignments
    ensures r.Some? ==>
      exists i :: (&& 0 <= i < |bindings| && bindings[i].name == r.value
                   && bindings[i].isRequired && r.value !in assignments
                   && forall j :: 0 <= j < i && bindings[j].isRequired ==> bindings[j].name in assignments)
  {
    FirstMissingFrom(bindings, assignments, 0)
  }

  /** The search of `FirstMissingRequired` from position `k` on. */
  function FirstMissingFrom<V>(bindings: seq<Binding>, assignments: map<string, Assigned<V>>, k: nat): (r: Option<string>)
    requires k <= |bindings|
    requires forall j :: 0 <= j < k && bindings[j].isRequired ==> bindings[j].name in assignments
    ensures r.None? <==> forall j :: 0 <= j < |bindings| && bindings[j].isRequired ==> bindings[j].name in assignments
    ensures r.Some? ==>
      exists i :: (&& k <= i < |bindings| && bindings[i].name == r.value
                   && bindings[i].isRequired && r.value !in assignments
                   && forall j :: 0 <= j < i && bindings[j].isRequired ==> bindings[j].name in assignments)
    decreases |bindings| - k
  {
    if k == |bindings| then None
    else if bindings[k].isRequired && bindings[k].name !in assignments then Some(bindings[k].name)
    else FirstMissingFrom(bindings, assignments, k + 1)
  }

  // ---------------------------------------------------------------------
  // What the argument loop accepts

  /** An argument names a binding, and carries a value that parses or is a bare boolean flag. */
  ghost predicate Acceptable<V>(bindings: seq<Binding>, parse: (Binding, string) -> Option<V>, arg: string)
  {
    exists b :: b in bindings && b.name == ArgName(arg) && Fits(b, parse, arg)
  }

  ghost predicate Fits<V>(b: Binding, parse: (Binding, string) -> Option<V>, arg: string)
  {
    match ArgValue(arg)
    case Some(v) => parse(b, v).Some?
    case None => b.isBool
  }

  /** The names the arguments give, one per argument. */
  ghost function Names(args: seq<string>): set<string>
  {
    set i | 0 <= i < |args| :: ArgName(args[i])
  }

  /**
   * Every argument is acceptable, names a property not yet assigned, and no
   * two arguments name the same property.
   */
  ghost predicate Accepted<V>(bindings: seq<Binding>, parse: (Binding, string) -> Option<V>,
                              assignments: map<string, Assigned<V>>, args: seq<string>)
  {
    && (forall i :: 0 <= i < |args| ==> Acceptable(bindings, parse, args[i]) && ArgName(args[i]) !in assignments)
    && (forall i, j :: 0 <= i < j < |args| ==> ArgName(args[i]) != ArgName(args[j]))
  }

  /** What an acceptable argument assigns to the binding it names. */
  ghost predicate AssignedFrom<V>(b: Binding, parse: (Binding, string) -> Option<V>, arg: string, a: Assigned<V>)
  {
    match ArgValue(arg)
    case Some(v) => parse(b, v).Some? && a == ParsedValue(parse(b, v).value)
    case None => a == SetTrue
  }

  /** One argument succeeds exactly when it is acceptable and names a property not yet assigned. */
  lemma ApplyArgSucceeds<V>(bindings: seq<Binding>, parse: (Binding, string) -> Option<V>,
                            assignments: map<string, Assigned<V>>, arg: string)
    requires UniqueNames(bindings)
    ensures ApplyArg(bindings, parse, assignments, arg).Success? <==>
      Acceptable(bindings, parse, arg) && ArgName(arg) !in assignments
    ensures ApplyArg(bindings, parse, assignments, arg).Success? ==>
      exists b :: b in bindings && b.name == ArgName(arg)
        && AssignedFrom(b, parse, arg, ApplyArg(bindings, parse, assignments, arg).value[ArgName(arg)])
  {
    var name := ArgName(arg);
    var found := Lookup(bindings, name);
    if Acceptable(bindings, parse, arg) {
      var b :| b in bindings && b.name == name && Fits(b, parse, arg);
      LookupUnique(bindings, b);
    }
    if found.Some? {
      assert found.value in bindings && found.value.name == name;
    }
  }

  /**
   * The arguments are accepted exactly when the first one is, against the
   * properties assigned so far, and the rest are against those plus its name.
   */
  lemma AcceptedCons<V>(bindings: seq<Binding>, parse: (Binding, string) -> Option<V>,
                        assignments: map<string, Assigned<V>>, next: map<string, Assigned<V>>, args: seq<string>)
    requires |args| > 0 && next.Keys == assignments.Keys + {ArgName(args[0])}
    ensures Accepted(bindings, parse, assignments, args) <==>
      (&& Acceptable(bindings, parse, args[0])
       && ArgName(args[0]) !in assignments
       && Accepted(bindings, parse, next, args[1..]))
  {
    var tail := args[1..];
    assert forall i :: 0 < i < |args| ==> args[i] == tail[i - 1];
    if Accepted(bindings, parse, assignments, args) {
      forall i | 0 <= i < |tail|
        ensures ArgName(tail[i]) !in next
      {
        assert ArgName(args[0]) != ArgName(args[i + 1]);
      }
      forall i, j | 0 <= i < j < |tail|
        ensures ArgName(tail[i]) != ArgName(tail[j])
      {
        assert ArgName(args[i + 1]) != ArgName(args[j + 1]);
      }
    }
    if Acceptable(bindings, parse, args[0]) && ArgName(args[0]) !in assignments && Accepted(bindings, parse, next, tail) {
      forall i, j | 0 <= i < j < |args|
        ensures ArgName(args[i]) != ArgName(args[j])
      {
        if i > 0 {
          assert ArgName(tail[i - 1]) != ArgName(tail[j - 1]);
        } else {
          assert ArgName(tail[j - 1]) !in next;
        }
      }
    }
  }

  /** The argument loop runs to the end exactly when the arguments are accepted. */
  lemma {:induction false} ProcessArgsSucceeds<V>(bindings: seq<Binding>, parse: (Binding, string) -> Option<V>,
                                                  assignments: map<string, Assigned<V>>, args: seq<string>)
    requires UniqueNames(bindings)
    ensures ProcessArgs(bindings, parse, assignments, args).error.None? <==> Accepted(bindings, parse, assignments, args)
    decreases |args|
  {
    if |args| > 0 {
      ApplyArgSucceeds(bindings, parse, assignments, args[0]);
      var first := ApplyArg(bindings, parse, assignments, args[0]);
      if first.Success? {
        ProcessArgsSucceeds(bindings, parse, first.value, args[1..]);
        AcceptedCons(bindings, parse, assignments, first.value, args);
      } else {
        assert !(Acceptable(bindings, parse, args[0]) && ArgName(args[0]) !in assignments);
      }
    }
  }

  /** The names of the arguments are the first one's and the rest's. */
  lemma NamesCons(args: seq<string>)
    requires |args| > 0
    ensures Names(args) == {ArgName(args[0])} + Names(args[1..])
  {
    forall n | n in Names(args) ensures n in {ArgName(args[0])} + Names(args[1..]) {
      var i :| 0 <= i < |args| && n == ArgName(args[i]);
      if i > 0 { assert n == ArgName(args[1..][i - 1]); }
    }
    forall n | n in Names(args[1..]) ensures n in Names(args) {
      var i :| 0 <= i < |args[1..]| && n == ArgName(args[1..][i]);
      assert args[1..][i] == args[i + 1];
    }
  }

  /**
   * When the arguments are accepted, the loop assigns exactly the properties
   * they name and keeps what was assigned before.
   */
  lemma {:induction false} ProcessArgsKeys<V>(bindings: seq<Binding>, parse: (Binding, string) -> Option<V>,
                                              assignments: map<string, Assigned<V>>, args: seq<string>)
    requires UniqueNames(bindings) && Accepted(bindings, parse, assignments, args)
    ensures var r := ProcessArgs(bindings, parse, assignments, args).assignments;
      && r.Keys == assignments.Keys + Names(args)
      && (forall k :: k in assignments ==> r[k] == assignments[k])
    decreases |args|
  {
    if |args| > 0 {
      ProcessArgsSucceeds(bindings, parse, assignments, args);
      ApplyArgSucceeds(bindings, parse, assignments, args[0]);
      var next := ApplyArg(bindings, parse, assignments, args[0]).value;
      ProcessArgsSucceeds(bindings, parse, next, args[1..]);
      ProcessArgsKeys(bindings, parse, next, args[1..]);
      NamesCons(args);
    }
  }

  /** When the arguments are accepted, each named property holds what its own argument gives. */
  lemma {:induction false} ProcessArgsValues<V>(bindings: seq<Binding>, parse: (Binding, string) -> Option<V>,
                                                assignments: map<string, Assigned<V>>, args: seq<string>)
    requires UniqueNames(bindings) && Accepted(bindings, parse, assignments, args)
    ensures var r := ProcessArgs(bindings, parse, assignments, args).assignments;
      forall i :: 0 <= i < |args| ==>
        (ArgName(args[i]) in r &&
         exists b :: b in bindings && b.name == ArgName(args[i]) && AssignedFrom(b, parse, args[i], r[ArgName(args[i])]))
    decreases |args|
  {
    if |args| > 0 {
      ProcessArgsSucceeds(bindings, parse, assignments, args);
      ApplyArgSucceeds(bindings, parse, assignments, args[0]);
      var next := ApplyArg(bindings, parse, assignments, args[0]).value;
      var tail := args[1..];
      ProcessArgsSucceeds(bindings, parse, next, tail);
      ProcessArgsValues(bindings, parse, next, tail);
      ProcessArgsKeys(bindings, parse, next, tail);
      var r := ProcessArgs(bindings, parse, assignments, args).assignments;
      assert r == ProcessArgs(bindings, parse, next, tail).assignments;
      forall i | 0 <= i < |args|
        ensures ArgName(args[i]) in r &&
          exists b :: b in bindings && b.name == ArgName(args[i]) && AssignedFrom(b, parse, args[i], r[ArgName(args[i])])
      {
        if i > 0 {
          assert args[i] == tail[i - 1];
        } else {
          assert r[ArgName(args[0])] == next[ArgName(args[0])];
        }
      }
    }
  }

  /**
   * A failing loop stops at one argument: every argument before it was
   * applied (and its assignments are kept), and that argument fails against them.
   */
  lemma {:induction false} ProcessArgsStops<V>(bindings: seq<Binding>, parse: (Binding, string) -> Option<V>,
                                               assignments: map<string, Assigned<V>>, args: seq<string>)
    ensures var r := ProcessArgs(bindings, parse, assignments, args);
      r.error.Some? ==>
        exists i :: 0 <= i < |args| &&
          ProcessArgs(bindings, parse, assignments, args[..i]) == Progress(r.assignments, None) &&
          ApplyArg(bindings, parse, r.assignments, args[i]) == Failure(r.error.value)
    decreases |args|
  {
    var r := ProcessArgs(bindings, parse, assignments, args);
    if |args| > 0 && r.error.Some? {
      var first := ApplyArg(bindings, parse, assignments, args[0]);
      if first.Failure? {
        assert args[..0] == [];
      } else {
        var tail := args[1..];
        ProcessArgsCons(bindings, parse, assignments, args, first.value);
        ProcessArgsStops(bindings, parse, first.value, tail);
        var i :| 0 <= i < |tail|
          && ProcessArgs(bindings, parse, first.value, tail[..i]) == Progress(r.assignments, None)
          && ApplyArg(bindings, parse, r.assignments, tail[i]) == Failure(r.error.value);
        var prefix := args[..i + 1];
        PrefixTail(args, i);
        ProcessArgsCons(bindings, parse, assignments, prefix, first.value);
        assert args[i + 1] == tail[i];
      }
    }
  }

  /** Processing the arguments never reports a missing required parameter: only a parse does. */
  lemma ProcessArgsNeverRequired<V>(bindings: seq<Binding>, parse: (Binding, string) -> Option<V>,
                                    assignments: map<string, Assigned<V>>, args: seq<string>)
    ensures var r := ProcessArgs(bindings, parse, assignments, args);
      r.error.Some? ==> !r.error.value.Required?
  {
    ProcessArgsStops(bindings, parse, assignments, args);
  }

  /** Taking `i + 1` elements and dropping the first is dropping the first and taking `i`. */
  lemma PrefixTail<T>(s: seq<T>, i: nat)
    requires i < |s|
    ensures s[..i + 1][0] == s[0] && s[..i + 1][1..] == s[1..][..i]
  {
  }

  /** Once the first argument is applied, the rest are processed against what it left. */
  lemma ProcessArgsCons<V>(bindings: seq<Binding>, parse: (Binding, string) -> Option<V>,
                           assignments: map<string, Assigned<V>>, args: seq<string>, next: map<string, Assigned<V>>)
    requires |args| > 0 && ApplyArg(bindings, parse, assignments, args[0]) == Success(next)
    ensures ProcessArgs(bindings, parse, assignments, args) == ProcessArgs(bindings, parse, next, args[1..])
  {
  }

  // ---------------------------------------------------------------------
  // Parsing

  /** The four help tokens: "?" or "help", after a '/' or a '-'. */
  predicate IsHelp(arg: string)
    ensures IsHelp(arg) <==> |arg| >= 2 && (arg[0] == '/' || arg[0] == '-') && (arg[1..] == "?" || arg[1..] == "help")
  {
    arg == "/?" || arg == "/help" || arg == "-?" || arg == "-help"
  }

  /**
   * Parses the command line. A help token anywhere throws the usage
   * exception with no inner failure before anything is assigned. Otherwise
   * the arguments are processed in order, and then the required bindings are
   * checked; any failure throws the usage exception wrapping it.
   */
  function Parse<V>(bindings: seq<Binding>, parse: (Binding, string) -> Option<V>, args: seq<string>): (r: ParseResult<V>)
    ensures (exists i :: 0 <= i < |args| && IsHelp(args[i])) ==>
      r == ParseResult(map[], Some(UsageError(Usage(bindings), None)))
    ensures r.failure.Some? ==> r.failure.value.usage == Usage(bindings)
    ensures r.failure.Some? && r.failure.value.inner.None? ==> exists i :: 0 <= i < |args| && IsHelp(args[i])
  {
    if exists i :: 0 <= i < |args| && IsHelp(args[i]) then
      ParseResult(map[], Some(UsageError(Usage(bindings), None)))
    else
      var progress := ProcessArgs(bindings, parse, map[], args);
      if progress.error.Some? then
        ParseResult(progress.assignments, Some(UsageError(Usage(bindings), progress.error)))
      else
        match FirstMissingRequired(bindings, progress.assignments)
        case None => ParseResult(progress.assignments, None)
        case Some(name) => ParseResult(progress.assignments, Some(UsageError(Usage(bindings), Some(Required(name)))))
  }

  /** No argument is a help token. */
  ghost predicate NoHelp(args: seq<string>)
  {
    forall i :: 0 <= i < |args| ==> !IsHelp(args[i])
  }

  /**
   * Without a help token, a parse keeps what the arguments assigned, and it
   * fails on the first argument error or else on the first missing required binding.
   */
  lemma ParseWithoutHelp<V>(bindings: seq<Binding>, parse: (Binding, string) -> Option<V>, args: seq<string>, progress: Progress<V>)
    requires NoHelp(args) && progress == ProcessArgs(bindings, parse, map[], args)
    ensures Parse(bindings, parse, args).assignments == progress.assignments
    ensures Parse(bindings, parse, args).failure ==
      if progress.error.Some? then Some(UsageError(Usage(bindings), progress.error))
      else if FirstMissingRequired(bindings, progress.assignments).None? then None
      else Some(UsageError(Usage(bindings), Some(Required(FirstMissingRequired(bindings, progress.assignments).value))))
  {
    assert !exists i :: 0 <= i < |args| && IsHelp(args[i]);
  }

  /**
   * A parse succeeds exactly when no argument asks for help, the arguments
   * are accepted, and every required binding is named by an argument.
   */
  lemma ParseSucceeds<V>(bindings: seq<Binding>, parse: (Binding, string) -> Option<V>, args: seq<string>)
    requires UniqueNames(bindings)
    ensures Parse(bindings, parse, args).failure.None? <==>
      (&& NoHelp(args)
       && Accepted(bindings, parse, map[], args)
       && forall b :: b in bindings && b.isRequired ==> b.name in Names(args))
  {
    if NoHelp(args) {
      var progress := ProcessArgs(bindings, parse, map[], args);
      ParseWithoutHelp(bindings, parse, args, progress);
      ProcessArgsSucceeds(bindings, parse, map[], args);
      if progress.error.None? {
        ProcessArgsKeys(bindings, parse, map[], args);
        assert progress.assignments.Keys == Names(args);
      }
    }
  }

  /** A successful parse assigns exactly the named properties, each from its own argument. */
  lemma ParseAssignments<V>(bindings: seq<Binding>, parse: (Binding, string) -> Option<V>, args: seq<string>)
    requires UniqueNames(bindings) && Parse(bindings, parse, args).failure.None?
    ensures var r := Parse(bindings, parse, args).assignments;
      && r.Keys == Names(args)
      && forall i :: 0 <= i < |args| ==>
           exists b :: b in bindings && b.name == ArgName(args[i]) && AssignedFrom(b, parse, args[i], r[ArgName(args[i])])
  {
    assert NoHelp(args);
    var progress := ProcessArgs(bindings, parse, map[], args);
    ParseWithoutHelp(bindings, parse, args, progress);
    ProcessArgsSucceeds(bindings, parse, map[], args);
    ProcessArgsKeys(bindings, parse, map[], args);
    ProcessArgsValues(bindings, parse, map[], args);
  }

  /**
   * A missing required parameter is reported only after every argument was
   * accepted and assigned, and it names the first required binding, in
   * binding order, that no argument names.
   */
  lemma ParseRequiredFailure<V>(bindings: seq<Binding>, parse: (Binding, string) -> Option<V>, args: seq<string>, name: string)
    requires UniqueNames(bindings)
    requires Parse(bindings, parse, args).failure == Some(UsageError(Usage(bindings), Some(Required(name))))
    ensures NoHelp(args) && Accepted(bindings, parse, map[], args)
    ensures Parse(bindings, parse, args).assignments.Keys == Names(args)
    ensures exists i :: (0 <= i < |bindings| && bindings[i].name == name && bindings[i].isRequired && name !in Names(args)
      && forall j :: 0 <= j < i && bindings[j].isRequired ==> bindings[j].name in Names(args))
  {
    assert NoHelp(args);
    var progress := ProcessArgs(bindings, parse, map[], args);
    ParseWithoutHelp(bindings, parse, args, progress);
    ProcessArgsNeverRequired(bindings, parse, map[], args);
    assert progress.error.None?;
    ProcessArgsSucceeds(bindings, parse, map[], args);
    ProcessArgsKeys(bindings, parse, map[], args);
    assert FirstMissingRequired(bindings, progress.assignments) == Some(name);
    MissingRequiredNamed(bindings, progress.assignments, Names(args), name);
  }

  /** The first missing required binding, told apart by the set of assigned names. */
  lemma MissingRequiredNamed<V>(bindings: seq<Binding>, assignments: map<string, Assigned<V>>, names: set<string>, name: string)
    requires assignments.Keys == names && FirstMissingRequired(bindings, assignments) == Some(name)
    ensures exists i :: (0 <= i < |bindings| && bindings[i].name == name && bindings[i].isRequired && name !in names
      && forall j :: 0 <= j < i && bindings[j].isRequired ==> bindings[j].name in names)
  {
  }

  /**
   * An argument failure is reported at one argument: the arguments before it
   * were applied and their assignments kept, and that argument fails against them.
   */
  lemma ParseArgumentFailure<V>(bindings: seq<Binding>, parse: (Binding, string) -> Option<V>, args: seq<string>, e: ParameterError)
    requires Parse(bindings, parse, args).failure == Some(UsageError(Usage(bindings), Some(e))) && !e.Required?
    ensures NoHelp(args)
    ensures var r := Parse(bindings, parse, args);
      exists i :: 0 <= i < |args| &&
        ProcessArgs(bindings, parse, map[], args[..i]) == Progress(r.assignments, None) &&
        ApplyArg(bindings, parse, r.assignments, args[i]) == Failure(e)
  {
    ProcessArgsStops(bindings, parse, map[], args);
  }

  // ---------------------------------------------------------------------
  // The usage line

  /** `char.IsWhiteSpace`: the Unicode space separators, line and paragraph separators, and the control whitespace. */
  predicate IsWhiteSpace(c: char)
  {
    || c == ' ' || c == '\t' || c == '\n' || c == '\U{B}' || c == '\U{C}' || c == '\r'
    || c == '\U{85}' || c == '\U{A0}' || c == '\U{1680}' || ('\U{2000}' <= c <= '\U{200A}')
    || c == '\U{2028}' || c == '\U{2029}' || c == '\U{202F}' || c == '\U{205F}' || c == '\U{3000}'
  }

  /** `string.IsNullOrWhiteSpace` on a string that is not null. */
  predicate IsBlank(s: string)
  {
    forall i :: 0 <= i < |s| ==> IsWhiteSpace(s[i])
  }

  /** The description shown for a binding's value: its short description, or "value" when that is null or blank. */
  function Description(b: Binding): (d: string)
    ensures !IsBlank(d)
    ensures b.shortDescription.Some? && !IsBlank(b.shortDescription.value) ==> d == b.shortDescription.value
    ensures b.shortDescription.None? || IsBlank(b.shortDescription.value) ==> d == "value"
  {
    if b.shortDescription.None? || IsBlank(b.shortDescription.value) then
      assert !IsWhiteSpace("value"[0]);
      "value"
    else b.shortDescription.value
  }

  /**
   * One binding in the usage line: `Name=<desc>`, with the value part in
   * brackets for a boolean (`Name[=<desc>]`), and the whole in brackets when
   * the parameter is optional.
   */
  function UsageItem(b: Binding): (item: string)
    ensures var valueAssignment := "=<" + Description(b) + ">";
      var argument := b.name + (if b.isBool then "[" + valueAssignment + "]" else valueAssignment);
      item == if b.isRequired then argument else "[" + argument + "]"
    ensures !IsBlank(item)
  {
    var valueAssignment := "=<" + Description(b) + ">";
    var possiblyOptionalValue := if b.isBool then "[" + valueAssignment + "]" else valueAssignment;
    var argument := b.name + possiblyOptionalValue;
    var item := if b.isRequired then argument else "[" + argument + "]";
    assert item[|item| - 1] == (if b.isRequired && !b.isBool then '>' else ']');
    item
  }

  /**
   * The usage loop as written: the item is appended after a single space,
   * except while the line built so far is blank, when it replaces it.
   */
  function UsageFrom(bindings: seq<Binding>, usage: string): string
    decreases |bindings|
  {
    if |bindings| == 0 then usage
    else
      var item := UsageItem(bindings[0]);
      UsageFrom(bindings[1..], if IsBlank(usage) then item else usage + " " + item)
  }

  /** The usage line of the bindings, in binding order. */
  function Usage(bindings: seq<Binding>): string
  {
    UsageFrom(bindings, "")
  }

  /** The strings joined with one space between neighbours. */
  function JoinWithSpaces(items: seq<string>): string
  {
    if |items| == 0 then "" else if |items| == 1 then items[0] else JoinWithSpaces(items[..|items| - 1]) + " " + items[|items| - 1]
  }

  /** The usage items of the bindings, in order. */
  function UsageItems(bindings: seq<Binding>): (items: seq<string>)
    ensures |items| == |bindings|
    ensures forall i :: 0 <= i < |bindings| ==> items[i] == UsageItem(bindings[i])
  {
    if |bindings| == 0 then [] else [UsageItem(bindings[0])] + UsageItems(bindings[1..])
  }

  /** Every usage item is non-blank, so a non-empty join is never blank. */
  lemma JoinNotBlank(items: seq<string>)
    requires |items| > 0 && !IsBlank(items[|items| - 1])
    ensures !IsBlank(JoinWithSpaces(items))
  {
    var last := items[|items| - 1];
    var k :| 0 <= k < |last| && !IsWhiteSpace(last[k]);
    if |items| > 1 {
      var front := JoinWithSpaces(items[..|items| - 1]) + " ";
      assert JoinWithSpaces(items) == front + last;
      assert (front + last)[|front| + k] == last[k];
    }
  }

  /** The items of the bindings are the first one's item followed by the rest's. */
  lemma UsageItemsCons(bindings: seq<Binding>, items: seq<string>)
    requires |bindings| > 0
    ensures (items + [UsageItem(bindings[0])]) + UsageItems(bindings[1..]) == items + UsageItems(bindings)
  {
    var item, rest := UsageItem(bindings[0]), UsageItems(bindings[1..]);
    assert UsageItems(bindings) == [item] + rest;
    AppendOneAssoc(items, item, rest);
  }

  /** Appending one element and then a sequence is appending the element's sequence. */
  lemma AppendOneAssoc<T>(a: seq<T>, x: T, b: seq<T>)
    ensures (a + [x]) + b == a + ([x] + b)
  {
  }

  /** One step of the usage loop appends the item to the join. */
  lemma UsageStep(items: seq<string>, item: string)
    requires forall i :: 0 <= i < |items| ==> !IsBlank(items[i])
    requires !IsBlank(item)
    ensures (if IsBlank(JoinWithSpaces(items)) then item else JoinWithSpaces(items) + " " + item)
      == JoinWithSpaces(items + [item])
    ensures forall i :: 0 <= i < |items + [item]| ==> !IsBlank((items + [item])[i])
  {
    var more := items + [item];
    if |items| == 0 {
      assert more == [item];
    } else {
      JoinNotBlank(items);
      assert more[..|more| - 1] == items;
    }
  }

  /** The usage loop from the join of some items continues that join with the items of the remaining bindings. */
  lemma {:induction false} UsageFromJoin(bindings: seq<Binding>, items: seq<string>)
    requires forall i :: 0 <= i < |items| ==> !IsBlank(items[i])
    ensures UsageFrom(bindings, JoinWithSpaces(items)) == JoinWithSpaces(items + UsageItems(bindings))
    decreases |bindings|
  {
    if |bindings| == 0 {
      assert items + UsageItems(bindings) == items;
    } else {
      var item := UsageItem(bindings[0]);
      var more := items + [item];
      UsageStep(items, item);
      UsageFromJoin(bindings[1..], more);
      UsageItemsCons(bindings, items);
    }
  }

  /** The usage line is the bindings' usage items joined with single spaces. */
  lemma UsageIsJoin(bindings: seq<Binding>)
    ensures Usage(bindings) == JoinWithSpaces(UsageItems(bindings))
  {
    UsageFromJoin(bindings, []);
    assert [] + UsageItems(bindings) == UsageItems(bindings);
  }
}

=== FILE: hwnd.dfy ===
/**
 * The HWND window-handle wrapper. An HWND object carries a handle value; a
 * null HWND reference is modelled as `None`. The wrapper treats a null
 * reference as equal to an HWND whose handle is 0.
 */
module Hwnd {
  import opened Wrappers

  /** A (non-null) HWND object and the handle value it wraps. */
  datatype Hwnd = Hwnd(handle: int)

  /** The static argument of `Equals(object)`: null, an HWND, or any other object. */
  datatype Object = NullObject | HwndObject(hwnd: Hwnd) | OtherObject

  /** The well-known handles. */
  const NULL: Hwnd := Hwnd(0)
  const BROADCAST: Hwnd := Hwnd(0xffff)
  const MESSAGE: Hwnd := Hwnd(-3)
  const DESKTOP: Hwnd := Hwnd(0)
  const TOP: Hwnd := Hwnd(0)
  const BOTTOM: Hwnd := Hwnd(1)
  const TOPMOST: Hwnd := Hwnd(-1)
  const NOTOPMOST: Hwnd := Hwnd(-2)

  /** The handle a possibly-null reference stands for: null counts as handle 0. */
  function HandleOf(h: Option<Hwnd>): int
  {
    match h
    case None => 0
    case Some(w) => w.handle
  }

  /** `operator ==`: reference-null checks first, then handle comparison. */
  function OpEq(lvalue: Option<Hwnd>, rvalue: Option<Hwnd>): (b: bool)
    ensures b <==> HandleOf(lvalue) == HandleOf(rvalue)
  {
    if lvalue.None? then rvalue.None? || rvalue.value.handle == 0
    else if rvalue.None? then lvalue.value.handle == 0
    else lvalue.value.handle == rvalue.value.handle
  }

  /** `operator !=`: the negation of `operator ==`. */
  function OpNe(lvalue: Option<Hwnd>, rvalue: Option<Hwnd>): (b: bool)
    ensures b <==> HandleOf(lvalue) != HandleOf(rvalue)
  {
    !OpEq(lvalue, rvalue)
  }

  /** `Equals(HWND)`: a null argument equals this iff this handle is 0. */
  function EqualsHwnd(h: Hwnd, other: Option<Hwnd>): (b: bool)
    ensures b <==> OpEq(Some(h), other)
  {
    if other.None? then h.handle == 0 else other.value.handle == h.handle
  }

  /**
   * `Equals(object)` as written. The test `other != null` calls the
   * overloaded `operator !=`, which calls an HWND whose handle is 0 "null";
   * so such an argument is rejected before `Equals(HWND)` is consulted.
   */
  function EqualsObjectAsWritten(h: Hwnd, obj: Object): (b: bool)
    ensures b <==> ((obj.NullObject? && h.handle == 0)
                    || (obj.HwndObject? && obj.hwnd.handle != 0 && obj.hwnd.handle == h.handle))
  {
    match obj
    case NullObject => h.handle == 0
    case OtherObject => OpNe(None, None)  // the cast gives null, and `null != null` is false
    case HwndObject(other) => OpNe(Some(other), None) && EqualsHwnd(h, Some(other))
  }

  /** The as-written `Equals(object)` is not reflexive: `NULL.Equals((object)NULL)` is false while `NULL == NULL`. */
  lemma EqualsObjectAsWrittenNotReflexive()
    ensures !EqualsObjectAsWritten(NULL, HwndObject(NULL))
    ensures OpEq(Some(NULL), Some(NULL)) && EqualsHwnd(NULL, Some(NULL))
  {
  }

  /**
   * `Equals(object)` as evidently intended: the null test is a reference
   * test, so an HWND argument is always handed on to `Equals(HWND)`.
   */
  function EqualsObject(h: Hwnd, obj: Object): (b: bool)
    ensures obj.NullObject? ==> (b <==> h.handle == 0)
    ensures obj.OtherObject? ==> !b
    ensures obj.HwndObject? ==> (b <==> OpEq(Some(h), Some(obj.hwnd)))
  {
    match obj
    case NullObject => h.handle == 0
    case OtherObject => false
    case HwndObject(other) => EqualsHwnd(h, Some(other))
  }

  /** The corrected `Equals(object)` agrees with `==` for every argument that is null or an HWND. */
  lemma EqualsObjectAgreesWithOperator(h: Hwnd, other: Option<Hwnd>)
    ensures EqualsObject(h, if other.None? then NullObject else HwndObject(other.value))
            <==> OpEq(Some(h), other)
  {
  }

  /**
   * `GetHashCode` delegates to the hash of the handle value; `handleHash`
   * stands for the runtime's hash of a native-sized integer.
   */
  function HashCode(h: Hwnd, handleHash: int -> int): (code: int)
    ensures forall other: Hwnd :: EqualsHwnd(h, Some(other)) ==> code == handleHash(other.handle)
  {
    handleHash(h.handle)
  }

  /** `NULL`, `DESKTOP` and `TOP` all wrap handle 0: equal to each other and to a null reference. */
  lemma ZeroHandlesEqualNull()
    ensures OpEq(Some(NULL), None) && OpEq(Some(DESKTOP), None) && OpEq(Some(TOP), None)
    ensures OpEq(None, Some(NULL)) && OpEq(Some(NULL), Some(DESKTOP)) && OpEq(Some(DESKTOP), Some(TOP))
    ensures OpNe(Some(BROADCAST), None) && OpNe(Some(MESSAGE), None) && OpNe(Some(BOTTOM), None)
    ensures OpNe(Some(TOPMOST), None) && OpNe(Some(NOTOPMOST), None)
  {
  }

  /** `==` is an equivalence relation on possibly-null references. */
  lemma OpEqIsEquivalence(a: Option<Hwnd>, b: Option<Hwnd>, c: Option<Hwnd>)
    ensures OpEq(a, a)
    ensures OpEq(a, b) <==> OpEq(b, a)
    ensures OpEq(a, b) && OpEq(b, c) ==> OpEq(a, c)
  {
  }
}

=== FILE: perf_counters.dfy ===
/**
 * The UI-thread performance counters: on every rendering pass a sample is
 * pushed into the window, and FPS, the process and idle cycle deltas over the
 * window span, and two derived percentages are recomputed. Property-change
 * notifications are returned as the sequence of property names raised.
 */
module PerfCounters {
  import opened Wrappers
  import opened PerfSample
  import opened PerfWindow

  /** Number of 100-nanosecond ticks in one second. */
  const TicksPerSecond: int := 10_000_000

  /** `TimeSpan.MinValue`, in ticks: the "last rendering time" before any tick. */
  const TimeSpanMinValue: int := -0x8000_0000_0000_0000

  /** The window length the counters start with. */
  const DefaultNumberOfSamples: int := 10

  /**
   * A binary64 result of dividing a frame count by a time in seconds. A
   * finite result is kept exact, as the fraction of `frames` over a span of
   * `spanTicks` ticks; a zero span gives the values a division by zero
   * produces.
   */
  datatype Fps = Finite(frames: int, spanTicks: int) | PositiveInfinity | NegativeInfinity | NaN
  {
    /**
     * Inequality of exact values, after the binary64 `!=` for the special values: NaN differs
     * from everything, itself included; finite values compare as exact fractions.
     */
    predicate Differs(other: Fps)
    {
      if NaN? || other.NaN? then true
      else if Finite? && other.Finite? then frames * other.spanTicks != other.frames * spanTicks
      else this != other
    }
  }

  /** The value 0.0: no frames over one second. */
  const ZeroFps: Fps := Finite(0, TicksPerSecond)

  /** The number of frames per second a finite result stands for. */
  function PerSecond(f: Fps): real
    requires f.Finite? && f.spanTicks != 0
  {
    f.frames as real * TicksPerSecond as real / f.spanTicks as real
  }

  /**
   * `frames / seconds` for a span of `spanTicks` ticks, with the binary64
   * division-by-zero results instead of a fault.
   */
  function FpsOver(frames: int, spanTicks: int): (q: Fps)
    ensures spanTicks != 0 ==> q.Finite? && q.frames == frames && q.spanTicks == spanTicks
    ensures spanTicks == 0 && frames > 0 ==> q.PositiveInfinity?
    ensures spanTicks == 0 && frames < 0 ==> q.NegativeInfinity?
    ensures spanTicks == 0 && frames == 0 ==> q.NaN?
  {
    if spanTicks != 0 then Finite(frames, spanTicks)
    else if frames > 0 then PositiveInfinity
    else if frames < 0 then NegativeInfinity
    else NaN
  }

  /** A finite result times the span in seconds gives back the frame count. */
  lemma FpsOverValue(frames: int, spanTicks: int)
    requires spanTicks != 0
    ensures PerSecond(FpsOver(frames, spanTicks)) * (spanTicks as real / TicksPerSecond as real) == frames as real
  {
    var seconds := spanTicks as real / TicksPerSecond as real;
    assert seconds != 0.0;
    assert PerSecond(FpsOver(frames, spanTicks)) == frames as real / seconds;
  }

  /** Property names raised as change notifications. */
  const NumberOfSamplesName: string := "NumberOfSamples"
  const FpsName: string := "FPS"
  const ProcessCycleTimeName: string := "ProcessCycleTime"
  const IdleCycleTimeName: string := "IdleCycleTime"
  const ProcessCyclePercentageName: string := "ProcessCyclePercentage"
  const IdleCyclePercentageName: string := "IdleCyclePercentage"

  /** The state of one counters object. */
  datatype Counters = Counters(
    samples: Slots,
    fps: Fps,
    processCycleTime: int,
    idleCycleTime: int,
    lastRenderingTime: int,
    numberOfProcessors: int)

  /** A new state together with the notifications raised on the way to it, in order. */
  datatype Notified = Notified(state: Counters, raised: seq<string>)

  /** The notifications the three metric setters raise, given which of them saw a new value. */
  function MetricNotifications(fpsChanged: bool, processChanged: bool, idleChanged: bool): seq<string>
  {
    (if fpsChanged then [FpsName] else [])
    + (if processChanged then [ProcessCycleTimeName, ProcessCyclePercentageName, IdleCyclePercentageName] else [])
    + (if idleChanged then [IdleCycleTimeName, ProcessCyclePercentageName, IdleCyclePercentageName] else [])
  }

  /**
   * The three metric setters together raise nothing exactly when no metric
   * changed; each metric's own name is raised exactly when it changed, both
   * percentage names exactly when a cycle time changed, and "FPS" first.
   */
  lemma MetricNotificationsNames(fpsChanged: bool, processChanged: bool, idleChanged: bool)
    ensures var raised := MetricNotifications(fpsChanged, processChanged, idleChanged);
      && (raised == [] <==> !fpsChanged && !processChanged && !idleChanged)
      && (FpsName in raised <==> fpsChanged)
      && (ProcessCycleTimeName in raised <==> processChanged)
      && (IdleCycleTimeName in raised <==> idleChanged)
      && (ProcessCyclePercentageName in raised <==> processChanged || idleChanged)
      && (IdleCyclePercentageName in raised <==> processChanged || idleChanged)
      && (fpsChanged ==> raised[0] == FpsName)
  {
  }

  // ---------------------------------------------------------------------
  // Window length

  /** The `NumberOfSamples` getter: the length of the window. */
  function NumberOfSamples(c: Counters): nat
  {
    |c.samples|
  }

  /**
   * The getter reads back what the setter was given, clamped to at least 1,
   * and handing the setter the value the getter reads changes nothing.
   */
  lemma NumberOfSamplesSetGet(c: Counters, value: int)
    ensures NumberOfSamples(SetNumberOfSamples(c, value).state) == if value >= 1 then value else 1
    ensures NumberOfSamples(c) >= 1 ==> SetNumberOfSamples(c, NumberOfSamples(c)) == Notified(c, [])
  {
  }

  /**
   * The `NumberOfSamples` setter: the value is clamped to at least 1; a
   * length different from the current one empties and resizes the window
   * and raises one notification, and the same length changes nothing.
   */
  function SetNumberOfSamples(c: Counters, value: int): (r: Notified)
    ensures var n := if value >= 1 then value else 1;
      && NumberOfSamples(r.state) == n
      && (n != |c.samples| ==> NoneFilled(r.state.samples) && r.raised == [NumberOfSamplesName])
      && (n == |c.samples| ==> r == Notified(c, []))
    ensures r.state == c.(samples := r.state.samples)
  {
    var n := if value >= 1 then value else 1;
    if n != |c.samples| then Notified(c.(samples := Cleared(n)), [NumberOfSamplesName])
    else Notified(c, [])
  }

  /**
   * The constructor: ten empty slots, all metrics zero, no tick seen yet.
   * Its own notification reaches nobody, since no handler can be attached
   * before the constructor returns.
   */
  function Create(numberOfProcessors: int): (c: Counters)
    ensures NumberOfSamples(c) == DefaultNumberOfSamples && NoneFilled(c.samples)
    ensures c.fps == ZeroFps && c.processCycleTime == 0 && c.idleCycleTime == 0
    ensures c.lastRenderingTime == TimeSpanMinValue
    ensures c.numberOfProcessors == numberOfProcessors
  {
    var blank := Counters([], ZeroFps, 0, 0, TimeSpanMinValue, numberOfProcessors);
    SetNumberOfSamples(blank, DefaultNumberOfSamples).state
  }

  // ---------------------------------------------------------------------
  // Metric setters

  /**
   * The `FPS` setter: raises "FPS" only if the value differs from the old one.
   * The new value is stored either way; when the two are equal as exact
   * values, the stored fraction denotes the same number as the old one.
   */
  function SetFps(c: Counters, value: Fps): (r: Notified)
    ensures r.state == c.(fps := value)
    ensures r.raised == if value.Differs(c.fps) then [FpsName] else []
    ensures r.raised == [] ==> !r.state.fps.Differs(c.fps)
  {
    Notified(c.(fps := value), if value.Differs(c.fps) then [FpsName] else [])
  }

  /** The `ProcessCycleTime` setter: on a new value it raises its own name and both percentages. */
  function SetProcessCycleTime(c: Counters, value: int): (r: Notified)
    ensures r.state == c.(processCycleTime := value)
    ensures r.raised == MetricNotifications(false, value != c.processCycleTime, false)
  {
    if value != c.processCycleTime then
      Notified(c.(processCycleTime := value), [ProcessCycleTimeName, ProcessCyclePercentageName, IdleCyclePercentageName])
    else Notified(c, [])
  }

  /** The `IdleCycleTime` setter: on a new value it raises its own name and both percentages. */
  function SetIdleCycleTime(c: Counters, value: int): (r: Notified)
    ensures r.state == c.(idleCycleTime := value)
    ensures r.raised == MetricNotifications(false, false, value != c.idleCycleTime)
  {
    if value != c.idleCycleTime then
      Notified(c.(idleCycleTime := value), [IdleCycleTimeName, ProcessCyclePercentageName, IdleCyclePercentageName])
    else Notified(c, [])
  }

  // ---------------------------------------------------------------------
  // Aggregation

  /**
   * The three setters run in the order FPS, process, idle with the values
   * measured between the samples in slots `k` (start) and `e` (end): FPS is
   * the frame total over the span from start to end, and the cycle times are
   * the differences between end and start.
   */
  function SetMetrics(c: Counters, k: nat, e: nat): (r: Notified)
    requires k < |c.samples| && c.samples[k].Some?
    requires e < |c.samples| && c.samples[e].Some?
    ensures var start, end := c.samples[k].value, c.samples[e].value;
      && r.state.fps == FpsOver(FrameTotal(c.samples), end.sampleTime - start.sampleTime)
      && r.state.processCycleTime == end.processCycleTime - start.processCycleTime
      && r.state.idleCycleTime == end.idleCycleTime - start.idleCycleTime
      && r.raised == MetricNotifications(r.state.fps.Differs(c.fps),
                                         r.state.processCycleTime != c.processCycleTime,
                                         r.state.idleCycleTime != c.idleCycleTime)
    ensures r.state.samples == c.samples && r.state.lastRenderingTime == c.lastRenderingTime
    ensures r.state.numberOfProcessors == c.numberOfProcessors
  {
    var start, end := c.samples[k].value, c.samples[e].value;
    var fps := FpsOver(FrameTotal(c.samples), end.sampleTime - start.sampleTime);
    var process := end.processCycleTime - start.processCycleTime;
    var idle := end.idleCycleTime - start.idleCycleTime;
    Notified(c.(fps := fps, processCycleTime := process, idleCycleTime := idle),
             MetricNotifications(fps.Differs(c.fps), process != c.processCycleTime, idle != c.idleCycleTime))
  }

  /** Setting the metrics is running the three setters in order, FPS first, collecting what each raises. */
  lemma SetMetricsRunsSetters(c: Counters, k: nat, e: nat)
    requires k < |c.samples| && c.samples[k].Some?
    requires e < |c.samples| && c.samples[e].Some?
    ensures var start, end := c.samples[k].value, c.samples[e].value;
      var setFps := SetFps(c, FpsOver(FrameTotal(c.samples), end.sampleTime - start.sampleTime));
      var setProcess := SetProcessCycleTime(setFps.state, end.processCycleTime - start.processCycleTime);
      var setIdle := SetIdleCycleTime(setProcess.state, end.idleCycleTime - start.idleCycleTime);
      SetMetrics(c, k, e) == Notified(setIdle.state, setFps.raised + setProcess.raised + setIdle.raised)
  {
    var start, end := c.samples[k].value, c.samples[e].value;
    var fps := FpsOver(FrameTotal(c.samples), end.sampleTime - start.sampleTime);
    var process := end.processCycleTime - start.processCycleTime;
    var idle := end.idleCycleTime - start.idleCycleTime;
    assert SetMetrics(c, k, e) == Notified(c.(fps := fps, processCycleTime := process, idleCycleTime := idle),
                                           MetricNotifications(fps.Differs(c.fps), process != c.processCycleTime,
                                                               idle != c.idleCycleTime));
    SettersCompose(c, fps, process, idle);
  }

  /** The three metric setters run in order store the three values and raise what each of them raises. */
  lemma SettersCompose(c: Counters, fps: Fps, process: int, idle: int)
    ensures var setFps := SetFps(c, fps);
      var setProcess := SetProcessCycleTime(setFps.state, process);
      var setIdle := SetIdleCycleTime(setProcess.state, idle);
      && setIdle.state == c.(fps := fps, processCycleTime := process, idleCycleTime := idle)
      && setFps.raised + setProcess.raised + setIdle.raised
         == MetricNotifications(fps.Differs(c.fps), process != c.processCycleTime, idle != c.idleCycleTime)
  {
  }

  /**
   * Recomputes the metrics from the window. When some slot is filled, the
   * start is the first slot of smallest time stamp and the end the first of
   * largest, and the metrics are set from that pair; with every slot empty
   * nothing changes.
   */
  function UpdatePerfCounters(c: Counters): (r: Notified)
    ensures NoneFilled(c.samples) ==> r == Notified(c, [])
    ensures !NoneFilled(c.samples) ==> exists k, e :: IsFirstMin(c.samples, k) && IsFirstMax(c.samples, e)
    ensures forall k, e | IsFirstMin(c.samples, k) && IsFirstMax(c.samples, e) :: r == SetMetrics(c, k, e)
    ensures r.state.samples == c.samples && r.state.lastRenderingTime == c.lastRenderingTime
    ensures r.state.numberOfProcessors == c.numberOfProcessors
  {
    var scan := Scan(c.samples);
    if scan.start.None? || scan.end.None? then Notified(c, [])
    else
      assert forall k | IsFirstMin(c.samples, k) :: k == scan.start.value by {
        forall k | IsFirstMin(c.samples, k) ensures k == scan.start.value {
          FirstMinUnique(c.samples, k, scan.start.value);
        }
      }
      assert forall e | IsFirstMax(c.samples, e) :: e == scan.end.value by {
        forall e | IsFirstMax(c.samples, e) ensures e == scan.end.value {
          FirstMaxUnique(c.samples, e, scan.end.value);
        }
      }
      SetMetrics(c, scan.start.value, scan.end.value)
  }

  // ---------------------------------------------------------------------
  // The rendering tick

  /** Sum of the per-processor idle cycle counts. */
  function Sum(xs: seq<int>): int
  {
    if |xs| == 0 then 0 else Sum(xs[..|xs| - 1]) + xs[|xs| - 1]
  }

  /**
   * The sum accumulated front to back, as the loop over processors does, is
   * also the first reading plus the sum of the rest: the order of the
   * readings does not matter to the front-most one.
   */
  lemma {:induction false} SumPrepend(x: int, xs: seq<int>)
    ensures Sum([x] + xs) == x + Sum(xs)
    decreases |xs|
  {
    if |xs| > 0 {
      assert ([x] + xs)[..|xs|] == [x] + xs[..|xs| - 1];
      SumPrepend(x, xs[..|xs| - 1]);
    }
  }

  /**
   * Records an accepted tick: the oldest slot is dropped, a one-frame sample
   * with the tick's time stamp and cycle readings is appended (the idle
   * reading being the sum over processors), and the time stamp becomes the
   * last accepted one. Nothing else changes.
   */
  function Accept(c: Counters, renderingTime: int, processCycles: int, idleCycleTimes: seq<int>): (a: Counters)
    requires |c.samples| >= 1
    ensures var n := |c.samples|;
      && |a.samples| == n
      && (forall i :: 0 <= i < n - 1 ==> a.samples[i] == c.samples[i + 1])
      && a.samples[n - 1] == Some(Sample(renderingTime, 1, processCycles, Sum(idleCycleTimes)))
    ensures a == c.(samples := a.samples, lastRenderingTime := renderingTime)
  {
    var sample := Sample(renderingTime, 1, processCycles, Sum(idleCycleTimes));
    c.(lastRenderingTime := renderingTime, samples := Push(c.samples, sample))
  }

  /**
   * The per-frame rendering handler. `renderingTime` is the frame's time
   * stamp; `processCycles` and `idleCycleTimes` are what the cycle-time
   * queries return (the process's cycles, and the idle cycles of each
   * processor). A time stamp not strictly later than the last accepted one
   * changes nothing and raises nothing; a later one is recorded and the
   * metrics are recomputed from the new window.
   */
  function Rendering(c: Counters, renderingTime: int, processCycles: int, idleCycleTimes: seq<int>): (r: Notified)
    requires |c.samples| >= 1
    ensures renderingTime <= c.lastRenderingTime ==> r == Notified(c, [])
    ensures renderingTime > c.lastRenderingTime ==>
      r == UpdatePerfCounters(Accept(c, renderingTime, processCycles, idleCycleTimes))
    ensures r.state.samples == (if renderingTime > c.lastRenderingTime
                                then Accept(c, renderingTime, processCycles, idleCycleTimes).samples else c.samples)
    ensures r.state.lastRenderingTime == (if renderingTime > c.lastRenderingTime then renderingTime else c.lastRenderingTime)
    ensures r.state.numberOfProcessors == c.numberOfProcessors
  {
    if renderingTime > c.lastRenderingTime then
      UpdatePerfCounters(Accept(c, renderingTime, processCycles, idleCycleTimes))
    else Notified(c, [])
  }

  // ---------------------------------------------------------------------
  // Derived percentages

  /** `ProcessCyclePercentage`: the process share of the measured cycles, 0 when there are none. */
  function ProcessCyclePercentage(c: Counters): (p: real)
    ensures c.processCycleTime + c.idleCycleTime > 0 ==>
      p * (c.processCycleTime + c.idleCycleTime) as real == c.processCycleTime as real
    ensures c.processCycleTime + c.idleCycleTime <= 0 ==> p == 0.0
  {
    var total := c.processCycleTime + c.idleCycleTime;
    if total > 0 then c.processCycleTime as real / total as real else 0.0
  }

  /** `IdleCyclePercentage`: the idle share of the measured cycles, 0 when there are none. */
  function IdleCyclePercentage(c: Counters): (p: real)
    ensures c.processCycleTime + c.idleCycleTime > 0 ==>
      p * (c.processCycleTime + c.idleCycleTime) as real == c.idleCycleTime as real
    ensures c.processCycleTime + c.idleCycleTime <= 0 ==> p == 0.0
  {
    var total := c.processCycleTime + c.idleCycleTime;
    if total > 0 then c.idleCycleTime as real / total as real else 0.0
  }

  /** The two percentages add up to 1 when cycles were measured, and are both 0 otherwise. */
  lemma PercentagesSumToOne(c: Counters)
    ensures c.processCycleTime + c.idleCycleTime > 0 ==>
      ProcessCyclePercentage(c) + IdleCyclePercentage(c) == 1.0
    ensures c.processCycleTime + c.idleCycleTime <= 0 ==>
      ProcessCyclePercentage(c) == 0.0 && IdleCyclePercentage(c) == 0.0
  {
    var total := (c.processCycleTime + c.idleCycleTime) as real;
    if total > 0.0 {
      var process, idle := c.processCycleTime as real, c.idleCycleTime as real;
      assert process + idle == total;
      assert process / total + idle / total == (process + idle) / total;
    }
  }
}

=== FILE: perf_properties.dfy ===
/**
 * Properties of the UI-thread performance counters over sequences of calls:
 * the window ordering kept between resizes, how many slots are filled after
 * a run of ticks, what the metrics are after an accepted tick, and the
 * duplicate-tick guard.
 */
module PerfProperties {
  import opened Wrappers
  import opened PerfSample
  import opened PerfWindow
  import opened PerfCounters

  /**
   * The state a counters object keeps between calls: a non-empty window whose
   * filled slots form a suffix of strictly increasing time stamps, none later
   * than the last accepted tick, one frame each.
   */
  ghost predicate Valid(c: Counters)
  {
    |c.samples| >= 1 && Ordered(c.samples, c.lastRenderingTime)
  }

  /** A freshly constructed object is valid and its window is empty. */
  lemma CreateValid(numberOfProcessors: int)
    ensures Valid(Create(numberOfProcessors))
    ensures FilledCount(Create(numberOfProcessors).samples) == 0
  {
  }

  /** Setting `NumberOfSamples` keeps the object valid; a resize empties the window. */
  lemma SetNumberOfSamplesValid(c: Counters, value: int)
    requires Valid(c)
    ensures Valid(SetNumberOfSamples(c, value).state)
    ensures SetNumberOfSamples(c, value).raised != [] ==> FilledCount(SetNumberOfSamples(c, value).state.samples) == 0
  {
    var r := SetNumberOfSamples(c, value);
    if r.raised != [] {
      NoneFilledCount(r.state.samples);
    }
  }

  /**
   * An accepted tick keeps the object valid and fills one more slot, up to
   * the window length; the window length never changes.
   */
  lemma RenderingValid(c: Counters, renderingTime: int, processCycles: int, idleCycleTimes: seq<int>)
    requires Valid(c)
    ensures var r := Rendering(c, renderingTime, processCycles, idleCycleTimes).state;
      && Valid(r)
      && |r.samples| == |c.samples|
      && (renderingTime > c.lastRenderingTime ==>
            FilledCount(r.samples) == if FilledCount(c.samples) < |c.samples| then FilledCount(c.samples) + 1 else |c.samples|)
  {
    if renderingTime > c.lastRenderingTime {
      var sample := Sample(renderingTime, 1, processCycles, Sum(idleCycleTimes));
      PushKeepsOrdered(c.samples, c.lastRenderingTime, sample);
      PushFilledCount(c.samples, sample);
    }
  }

  /**
   * In an ordered window with a filled slot, the recomputation takes the
   * first filled slot as start and the last slot as end.
   */
  lemma UpdateOrdered(c: Counters, last: int)
    requires Ordered(c.samples, last) && !NoneFilled(c.samples)
    ensures FirstFilled(c.samples) < |c.samples| && c.samples[|c.samples| - 1].Some?
    ensures UpdatePerfCounters(c) == SetMetrics(c, FirstFilled(c.samples), |c.samples| - 1)
  {
    OrderedScanEnds(c.samples, last);
    assert c.samples[|c.samples| - 1].Some?;
  }

  /** The time from the first filled slot to the last is zero exactly when only one slot is filled. */
  lemma OrderedSpan(w: Slots, last: int)
    requires Ordered(w, last) && !NoneFilled(w)
    ensures FirstFilled(w) < |w| && w[|w| - 1].Some?
    ensures var span := w[|w| - 1].value.sampleTime - w[FirstFilled(w)].value.sampleTime;
      && span >= 0
      && (span == 0 <==> FilledCount(w) == 1)
      && FrameTotal(w) == FilledCount(w)
      && FilledCount(w) == |w| - FirstFilled(w)
  {
    SingleFramesTotal(w);
    FilledCountOfSuffix(w);
    assert FirstFilled(w) < |w| - 1 ==> Stamp(w, FirstFilled(w)) < Stamp(w, |w| - 1);
  }

  /** A finite FPS value of a positive number of frames over a positive span. */
  predicate PositiveRate(f: Fps)
  {
    f.Finite? && f.frames > 0 && f.spanTicks > 0
  }

  /** A positive rate stands for a positive number of frames per second. */
  lemma PositiveRatePerSecond(f: Fps)
    requires PositiveRate(f)
    ensures PerSecond(f) > 0.0
  {
    assert f.frames as real * TicksPerSecond as real > 0.0;
  }

  /**
   * In an ordered window with a filled slot, the recomputation gives FPS
   * equal to the filled count over the time from the first filled slot to
   * the last, which is positive infinity exactly when one slot is filled and
   * a positive number otherwise, and cycle times equal to the differences
   * between those two slots.
   */
  lemma UpdateMetrics(a: Counters, last: int, newest: Sample, r: Counters)
    requires Ordered(a.samples, last) && |a.samples| >= 1 && a.samples[|a.samples| - 1] == Some(newest)
    requires r == UpdatePerfCounters(a).state
    ensures r.samples == a.samples
    ensures FirstFilled(r.samples) < |r.samples| && r.samples[FirstFilled(r.samples)].Some?
    ensures var start := r.samples[FirstFilled(r.samples)].value;
      && r.fps == FpsOver(FilledCount(r.samples), newest.sampleTime - start.sampleTime)
      && r.processCycleTime == newest.processCycleTime - start.processCycleTime
      && r.idleCycleTime == newest.idleCycleTime - start.idleCycleTime
      && (r.fps.PositiveInfinity? <==> FilledCount(r.samples) == 1)
      && (!r.fps.PositiveInfinity? ==> PositiveRate(r.fps))
  {
    var w := a.samples;
    assert !NoneFilled(w) by {
      assert w[|w| - 1].Some?;
    }
    UpdateOrdered(a, last);
    OrderedSpan(w, last);
    var start := w[FirstFilled(w)].value;
    MetricsBetween(a, FirstFilled(w), newest, r);
    FpsOverFilled(FrameTotal(w), FilledCount(w), newest.sampleTime - start.sampleTime, r.fps);
  }

  /** The metrics measured from slot `k` to a last slot holding `newest`. */
  lemma MetricsBetween(a: Counters, k: nat, newest: Sample, r: Counters)
    requires k < |a.samples| && a.samples[k].Some? && a.samples[|a.samples| - 1] == Some(newest)
    requires r == SetMetrics(a, k, |a.samples| - 1).state
    ensures var start := a.samples[k].value;
      && r.samples == a.samples
      && r.fps == FpsOver(FrameTotal(a.samples), newest.sampleTime - start.sampleTime)
      && r.processCycleTime == newest.processCycleTime - start.processCycleTime
      && r.idleCycleTime == newest.idleCycleTime - start.idleCycleTime
  {
  }

  /** FPS over the frames of an ordered window, from its frame total, filled count and span. */
  lemma FpsOverFilled(frameTotal: int, filled: int, spanTicks: int, fps: Fps)
    requires filled >= 1 && frameTotal == filled && spanTicks >= 0 && (spanTicks == 0 <==> filled == 1)
    requires fps == FpsOver(frameTotal, spanTicks)
    ensures fps == FpsOver(filled, spanTicks)
    ensures fps.PositiveInfinity? <==> filled == 1
    ensures !fps.PositiveInfinity? ==> PositiveRate(fps)
  {
  }

  /**
   * After an accepted tick the start of the window is its first filled slot
   * and the end is the new sample: FPS is the number of filled slots over the
   * time from the first filled slot to the new tick, and the cycle times are
   * the new readings minus those of the first filled slot. FPS is positive
   * infinity exactly when the new sample is the only one (the span is zero
   * and nothing guards the division); otherwise it is a positive number.
   */
  lemma RenderingMetrics(c: Counters, renderingTime: int, processCycles: int, idleCycleTimes: seq<int>, r: Counters)
    requires Valid(c) && renderingTime > c.lastRenderingTime
    requires r == Rendering(c, renderingTime, processCycles, idleCycleTimes).state
    ensures FirstFilled(r.samples) < |r.samples| && r.samples[FirstFilled(r.samples)].Some?
    ensures var first := r.samples[FirstFilled(r.samples)].value;
      && r.fps == FpsOver(FilledCount(r.samples), renderingTime - first.sampleTime)
      && r.processCycleTime == processCycles - first.processCycleTime
      && r.idleCycleTime == Sum(idleCycleTimes) - first.idleCycleTime
      && (r.fps.PositiveInfinity? <==> FilledCount(r.samples) == 1)
      && (!r.fps.PositiveInfinity? ==> PositiveRate(r.fps))
  {
    var a := Accept(c, renderingTime, processCycles, idleCycleTimes);
    AcceptOrdered(c, renderingTime, processCycles, idleCycleTimes);
    var newest := Sample(renderingTime, 1, processCycles, Sum(idleCycleTimes));
    UpdateMetrics(a, renderingTime, newest, r);
  }

  /** Recording a tick later than every sample keeps the window ordered and leaves it with a filled slot. */
  lemma AcceptOrdered(c: Counters, renderingTime: int, processCycles: int, idleCycleTimes: seq<int>)
    requires Valid(c) && renderingTime > c.lastRenderingTime
    ensures var a := Accept(c, renderingTime, processCycles, idleCycleTimes);
      && Ordered(a.samples, renderingTime) && !NoneFilled(a.samples)
      && a.samples[|a.samples| - 1] == Some(Sample(renderingTime, 1, processCycles, Sum(idleCycleTimes)))
  {
    var sample := Sample(renderingTime, 1, processCycles, Sum(idleCycleTimes));
    var a := Accept(c, renderingTime, processCycles, idleCycleTimes);
    assert a.samples == Push(c.samples, sample);
    PushKeepsOrdered(c.samples, c.lastRenderingTime, sample);
    assert a.samples[|a.samples| - 1] == Some(sample);
  }

  /** A tick stamped no later than the last accepted one is dropped: nothing changes, nothing is raised. */
  lemma StaleTickIgnored(c: Counters, renderingTime: int, processCycles: int, idleCycleTimes: seq<int>)
    requires |c.samples| >= 1 && renderingTime <= c.lastRenderingTime
    ensures Rendering(c, renderingTime, processCycles, idleCycleTimes) == Notified(c, [])
  {
  }

  /** A tick repeating the time stamp of the tick just accepted is dropped: nothing changes, nothing is raised. */
  lemma DuplicateTickIgnored(c: Counters, renderingTime: int, processCycles: int, idleCycleTimes: seq<int>,
                             laterProcessCycles: int, laterIdleCycleTimes: seq<int>)
    requires |c.samples| >= 1
    ensures var once := Rendering(c, renderingTime, processCycles, idleCycleTimes).state;
      |once.samples| >= 1 &&
      Rendering(once, renderingTime, laterProcessCycles, laterIdleCycleTimes) == Notified(once, [])
  {
  }

  /**
   * The first tick after a resize leaves a single sample: FPS becomes
   * positive infinity and both cycle times become 0, rather than the metrics
   * being left alone.
   */
  lemma FirstTickAfterResize(c: Counters, value: int, renderingTime: int, processCycles: int, idleCycleTimes: seq<int>)
    requires Valid(c)
    requires (if value >= 1 then value else 1) != |c.samples|
    requires renderingTime > c.lastRenderingTime
    ensures var r := Rendering(SetNumberOfSamples(c, value).state, renderingTime, processCycles, idleCycleTimes).state;
      r.fps == PositiveInfinity && r.processCycleTime == 0 && r.idleCycleTime == 0
  {
    var resized := SetNumberOfSamples(c, value).state;
    ResizeEmpties(c, value, resized);
    var r := Rendering(resized, renderingTime, processCycles, idleCycleTimes).state;
    TickIntoEmpty(resized, renderingTime, processCycles, idleCycleTimes, r);
  }

  /** A resize to a different length empties the window and keeps the object valid and its last tick. */
  lemma ResizeEmpties(c: Counters, value: int, resized: Counters)
    requires Valid(c)
    requires (if value >= 1 then value else 1) != |c.samples|
    requires resized == SetNumberOfSamples(c, value).state
    ensures Valid(resized) && NoneFilled(resized.samples)
    ensures resized.lastRenderingTime == c.lastRenderingTime
  {
    SetNumberOfSamplesValid(c, value);
  }

  /**
   * A tick into an empty window leaves the new sample alone in it: FPS is
   * positive infinity and both cycle times are 0.
   */
  lemma TickIntoEmpty(c: Counters, renderingTime: int, processCycles: int, idleCycleTimes: seq<int>, r: Counters)
    requires Valid(c) && NoneFilled(c.samples) && renderingTime > c.lastRenderingTime
    requires r == Rendering(c, renderingTime, processCycles, idleCycleTimes).state
    ensures FilledCount(r.samples) == 1
    ensures r.fps == PositiveInfinity && r.processCycleTime == 0 && r.idleCycleTime == 0
  {
    AcceptIntoEmpty(c, renderingTime, processCycles, idleCycleTimes);
    RenderingMetrics(c, renderingTime, processCycles, idleCycleTimes, r);
    var w := r.samples;
    assert w == Accept(c, renderingTime, processCycles, idleCycleTimes).samples;
    assert w[FirstFilled(w)].value == Sample(renderingTime, 1, processCycles, Sum(idleCycleTimes));
  }

  /** Recording a tick in an empty window fills its last slot and nothing else. */
  lemma AcceptIntoEmpty(c: Counters, renderingTime: int, processCycles: int, idleCycleTimes: seq<int>)
    requires |c.samples| >= 1 && NoneFilled(c.samples)
    ensures var w := Accept(c, renderingTime, processCycles, idleCycleTimes).samples;
      && FilledCount(w) == 1 && FirstFilled(w) < |w|
      && w[FirstFilled(w)] == Some(Sample(renderingTime, 1, processCycles, Sum(idleCycleTimes)))
  {
    var sample := Sample(renderingTime, 1, processCycles, Sum(idleCycleTimes));
    var w := Accept(c, renderingTime, processCycles, idleCycleTimes).samples;
    assert w == Push(c.samples, sample);
    PushIntoEmpty(c.samples, sample);
  }

  // ---------------------------------------------------------------------
  // Runs of ticks

  /** One rendering pass: its time stamp and the cycle readings taken during it. */
  datatype Tick = Tick(renderingTime: int, processCycles: int, idleCycleTimes: seq<int>)

  /** Feeds the ticks to the handler in order, collecting the notifications. */
  function Run(c: Counters, ticks: seq<Tick>): (r: Notified)
    requires |c.samples| >= 1
    ensures |r.state.samples| == |c.samples|
    decreases |ticks|
  {
    if |ticks| == 0 then Notified(c, [])
    else
      var first := Rendering(c, ticks[0].renderingTime, ticks[0].processCycles, ticks[0].idleCycleTimes);
      var rest := Run(first.state, ticks[1..]);
      Notified(rest.state, first.raised + rest.raised)
  }

  /** The time stamps strictly increase, and the first one is later than `after`. */
  ghost predicate IncreasingAfter(ticks: seq<Tick>, after: int)
  {
    && (|ticks| > 0 ==> ticks[0].renderingTime > after)
    && forall i :: 0 < i < |ticks| ==> ticks[i - 1].renderingTime < ticks[i].renderingTime
  }

  /** The first tick of an increasing run is later than `after`, and the rest of the run is increasing after it. */
  lemma IncreasingTail(ticks: seq<Tick>, after: int)
    requires |ticks| > 0 && IncreasingAfter(ticks, after)
    ensures ticks[0].renderingTime > after
    ensures IncreasingAfter(ticks[1..], ticks[0].renderingTime)
  {
    forall i | 0 < i < |ticks[1..]|
      ensures ticks[1..][i - 1].renderingTime < ticks[1..][i].renderingTime
    {
      assert ticks[1..][i] == ticks[i + 1] && ticks[1..][i - 1] == ticks[i];
    }
    if |ticks| > 1 {
      assert ticks[1..][0] == ticks[1];
    }
  }

  /** A run of ticks keeps the object valid. */
  lemma {:induction false} RunValid(c: Counters, ticks: seq<Tick>)
    requires Valid(c)
    ensures Valid(Run(c, ticks).state)
    decreases |ticks|
  {
    if |ticks| > 0 {
      var t := ticks[0];
      var first := Rendering(c, t.renderingTime, t.processCycles, t.idleCycleTimes);
      RenderingValid(c, t.renderingTime, t.processCycles, t.idleCycleTimes);
      RunValid(first.state, ticks[1..]);
      assert Run(c, ticks).state == Run(first.state, ticks[1..]).state;
    }
  }

  /**
   * Every tick of a strictly increasing run is accepted: after k ticks on a
   * window of n slots with m already filled, min(m + k, n) slots are filled.
   */
  lemma {:induction false} RunFilledCount(c: Counters, ticks: seq<Tick>)
    requires Valid(c) && IncreasingAfter(ticks, c.lastRenderingTime)
    ensures var m := FilledCount(c.samples) + |ticks|;
      FilledCount(Run(c, ticks).state.samples) == if m < |c.samples| then m else |c.samples|
    decreases |ticks|
  {
    if |ticks| > 0 {
      var t := ticks[0];
      var first := Rendering(c, t.renderingTime, t.processCycles, t.idleCycleTimes).state;
      RenderingValid(c, t.renderingTime, t.processCycles, t.idleCycleTimes);
      IncreasingTail(ticks, c.lastRenderingTime);
      RunFilledCount(first, ticks[1..]);
      RunCons(c, ticks, first);
    }
  }

  /** A run is its first tick followed by the run of the others. */
  lemma RunCons(c: Counters, ticks: seq<Tick>, first: Counters)
    requires |c.samples| >= 1 && |ticks| > 0
    requires first == Rendering(c, ticks[0].renderingTime, ticks[0].processCycles, ticks[0].idleCycleTimes).state
    ensures Run(c, ticks).state == Run(first, ticks[1..]).state
  {
  }

  /**
   * From construction, k ticks with strictly increasing time stamps fill
   * min(k, 10) slots; after ten of them the window is full.
   */
  lemma WarmUp(numberOfProcessors: int, ticks: seq<Tick>)
    requires IncreasingAfter(ticks, TimeSpanMinValue)
    ensures var filled := FilledCount(Run(Create(numberOfProcessors), ticks).state.samples);
      filled == if |ticks| < DefaultNumberOfSamples then |ticks| else DefaultNumberOfSamples
  {
    var c := Create(numberOfProcessors);
    CreateValid(numberOfProcessors);
    assert |c.samples| == DefaultNumberOfSamples && c.lastRenderingTime == TimeSpanMinValue;
    RunFilledCount(c, ticks);
  }

  /** In the two-slot run of `TwoSlotScenario`, the window after the first tick holds only that reading. */
  lemma ScenarioFirstTick(c: Counters, first: Counters)
    requires Valid(c) && |c.samples| == 2 && NoneFilled(c.samples) && c.lastRenderingTime < 0
    requires first == Rendering(c, 0, 100, [900]).state
    ensures Valid(first) && first.lastRenderingTime == 0
    ensures first.samples == [None, Some(Sample(0, 1, 100, 900))]
  {
    assert c.samples == [None, None];
    assert Sum([900]) == 900;
    RenderingValid(c, 0, 100, [900]);
  }

  /** After the second tick of the two-slot run of `TwoSlotScenario`, the window spans one second and holds two frames. */
  lemma ScenarioSecondTick(first: Counters, second: Counters)
    requires Valid(first) && first.lastRenderingTime == 0
    requires first.samples == [None, Some(Sample(0, 1, 100, 900))]
    requires second == Rendering(first, TicksPerSecond, 150, [1850]).state
    ensures second.fps == FpsOver(2, TicksPerSecond)
    ensures second.processCycleTime == 50 && second.idleCycleTime == 950
    ensures second.lastRenderingTime == TicksPerSecond && |second.samples| == 2
  {
    RenderingMetrics(first, TicksPerSecond, 150, [1850], second);
    var w := second.samples;
    assert Sum([1850]) == 1850;
    assert w[0] == Some(Sample(0, 1, 100, 900));
    BothFilled(w);
  }

  /** A window of two filled slots starts at slot 0 and counts two samples. */
  lemma BothFilled(w: Slots)
    requires |w| == 2 && w[0].Some? && w[1].Some?
    ensures FirstFilled(w) == 0 && FilledCount(w) == 2
  {
    FirstFilledIsFirst(w, 0);
    assert w[..1][..0] == [];
  }

  /**
   * An empty window of two slots, a tick at 0 s reading 100 process and 900
   * idle cycles, then a tick at 1 s reading 150 and 1850: FPS is 2, the
   * cycle times are 50 and 950, the percentages 0.05 and 0.95; a third tick
   * at 1 s is dropped.
   */
  lemma TwoSlotScenario(c: Counters, first: Counters, second: Counters)
    requires Valid(c) && |c.samples| == 2 && NoneFilled(c.samples) && c.lastRenderingTime < 0
    requires first == Rendering(c, 0, 100, [900]).state
    requires second == Rendering(first, TicksPerSecond, 150, [1850]).state
    ensures second.fps == Finite(2, TicksPerSecond) && PerSecond(second.fps) == 2.0
    ensures second.processCycleTime == 50 && second.idleCycleTime == 950
    ensures ProcessCyclePercentage(second) == 0.05 && IdleCyclePercentage(second) == 0.95
    ensures Rendering(second, TicksPerSecond, 200, [2000]) == Notified(second, [])
  {
    ScenarioFirstTick(c, first);
    ScenarioSecondTick(first, second);
    ScenarioValues(second);
    StaleTickIgnored(second, TicksPerSecond, 200, [2000]);
  }

  /** The numbers of the two-slot run of `TwoSlotScenario`: two frames over one second, 50 of 1000 cycles in the process. */
  lemma ScenarioValues(s: Counters)
    requires s.processCycleTime == 50 && s.idleCycleTime == 950
    ensures FpsOver(2, TicksPerSecond) == Finite(2, TicksPerSecond) && PerSecond(Finite(2, TicksPerSecond)) == 2.0
    ensures ProcessCyclePercentage(s) == 0.05 && IdleCyclePercentage(s) == 0.95
  {
  }
}

=== FILE: perf_sample.dfy ===
/** One per-frame performance sample taken on the UI thread. */
module PerfSample {

  /**
   * An immutable sample: the rendering time stamp (in 100-nanosecond ticks),
   * the number of frames it covers, and the cumulative process and idle CPU
   * cycle counts read at that moment.
   */
  datatype Sample = Sample(sampleTime: int, frameCount: int, processCycleTime: int, idleCycleTime: int)

  /**
   * Each accessor returns exactly the value given to the constructor, and a
   * sample is determined by its four accessors.
   */
  lemma SampleFieldsRoundTrip(sampleTime: int, frameCount: int, processCycleTime: int, idleCycleTime: int, s: Sample)
    ensures var t := Sample(sampleTime, frameCount, processCycleTime, idleCycleTime);
      t.sampleTime == sampleTime && t.frameCount == frameCount
      && t.processCycleTime == processCycleTime && t.idleCycleTime == idleCycleTime
    ensures Sample(s.sampleTime, s.frameCount, s.processCycleTime, s.idleCycleTime) == s
  {
  }
}

=== FILE: perf_window.dfy ===
/**
 * The fixed-length window of optional sample slots kept by the UI-thread
 * performance counters, and the scan that finds the earliest and latest
 * samples in it.
 */
module PerfWindow {
  import opened Wrappers
  import opened PerfSample

  /** The slots of the window; an empty slot is `None`. */
  type Slots = seq<Option<Sample>>

  /** The slot's frame count, or 0 for an empty slot. */
  function FramesIn(slot: Option<Sample>): int
  {
    if slot.Some? then slot.value.frameCount else 0
  }

  /** Sum of the frame counts of the filled slots. */
  function FrameTotal(w: Slots): int
  {
    if |w| == 0 then 0 else FrameTotal(w[..|w| - 1]) + FramesIn(w[|w| - 1])
  }

  /** Number of filled slots. */
  function FilledCount(w: Slots): (k: nat)
    ensures k <= |w|
  {
    if |w| == 0 then 0 else FilledCount(w[..|w| - 1]) + (if w[|w| - 1].Some? then 1 else 0)
  }

  predicate NoneFilled(w: Slots)
  {
    forall i :: 0 <= i < |w| ==> w[i].None?
  }

  /** A window of `n` slots, all empty: what a resize leaves behind. */
  function Cleared(n: nat): (w: Slots)
    ensures |w| == n && NoneFilled(w)
    ensures FilledCount(w) == 0
  {
    var w: Slots := seq(n, _ => None);
    NoneFilledCount(w);
    w
  }

  /** A window with no filled slot counts none. */
  lemma {:induction false} NoneFilledCount(w: Slots)
    requires NoneFilled(w)
    ensures FilledCount(w) == 0
  {
    if |w| > 0 {
      var v := w[..|w| - 1];
      assert NoneFilled(v) by {
        assert forall i :: 0 <= i < |v| ==> v[i] == w[i];
      }
      NoneFilledCount(v);
    }
  }

  /** Drops slot 0 and appends the new sample at the end. */
  function Push(w: Slots, s: Sample): (r: Slots)
    requires |w| >= 1
    ensures |r| == |w|
    ensures forall i :: 0 <= i < |w| - 1 ==> r[i] == w[i + 1]
    ensures r[|w| - 1] == Some(s)
  {
    seq(|w|, i requires 0 <= i < |w| => if i < |w| - 1 then w[i + 1] else Some(s))
  }

  // ---------------------------------------------------------------------
  // Earliest and latest samples

  /** No slot before `n` is filled. */
  predicate NoneFilledBefore(w: Slots, n: nat)
    requires n <= |w|
  {
    forall i :: 0 <= i < n ==> w[i].None?
  }

  /**
   * Among the slots before `n`, slot `k` holds a sample with the smallest
   * time stamp, and no earlier slot holds a sample with that same time stamp.
   */
  ghost predicate IsFirstMinBefore(w: Slots, n: nat, k: int)
    requires n <= |w|
  {
    && 0 <= k < n && w[k].Some?
    && (forall j :: 0 <= j < n && w[j].Some? ==> w[k].value.sampleTime <= w[j].value.sampleTime)
    && (forall j :: 0 <= j < k && w[j].Some? ==> w[j].value.sampleTime > w[k].value.sampleTime)
  }

  /**
   * Among the slots before `n`, slot `k` holds a sample with the largest
   * time stamp, and no earlier slot holds a sample with that same time stamp.
   */
  ghost predicate IsFirstMaxBefore(w: Slots, n: nat, k: int)
    requires n <= |w|
  {
    && 0 <= k < n && w[k].Some?
    && (forall j :: 0 <= j < n && w[j].Some? ==> w[j].value.sampleTime <= w[k].value.sampleTime)
    && (forall j :: 0 <= j < k && w[j].Some? ==> w[j].value.sampleTime < w[k].value.sampleTime)
  }

  /** Slot `k` is the first holding the window's smallest time stamp. */
  ghost predicate IsFirstMin(w: Slots, k: int)
  {
    IsFirstMinBefore(w, |w|, k)
  }

  /** Slot `k` is the first holding the window's largest time stamp. */
  ghost predicate IsFirstMax(w: Slots, k: int)
  {
    IsFirstMaxBefore(w, |w|, k)
  }

  /** What the scan has found so far: the start slot, the end slot and the frames seen. */
  datatype Extremes = Extremes(start: Option<nat>, end: Option<nat>, frames: int)

  /** One step of the scan over slot `i`: strict comparisons, so the first slot met wins a tie. */
  function ScanStep(e: Extremes, w: Slots, i: nat): Extremes
    requires i < |w|
    requires e.start.Some? ==> e.start.value < |w| && w[e.start.value].Some?
    requires e.end.Some? ==> e.end.value < |w| && w[e.end.value].Some?
  {
    if w[i].None? then e
    else
      var t := w[i].value.sampleTime;
      var start := if e.start.None? || t < w[e.start.value].value.sampleTime then Some(i) else e.start;
      var end := if e.end.None? || t > w[e.end.value].value.sampleTime then Some(i) else e.end;
      Extremes(start, end, e.frames + w[i].value.frameCount)
  }

  /** What the scan knows after the slots before `n`: the loop's invariant, apart from the frame count. */
  ghost predicate ScannedUpTo(e: Extremes, w: Slots, n: nat)
    requires n <= |w|
  {
    && (e.start.None? <==> NoneFilledBefore(w, n))
    && (e.end.None? <==> NoneFilledBefore(w, n))
    && (e.start.Some? ==> IsFirstMinBefore(w, n, e.start.value))
    && (e.end.Some? ==> IsFirstMaxBefore(w, n, e.end.value))
  }

  /**
   * One pass of the loop body keeps the loop's invariant, now over one slot
   * more, and adds the slot's frames to the count.
   */
  lemma ScanStepKeepsInvariant(e: Extremes, w: Slots, i: nat)
    requires i < |w| && ScannedUpTo(e, w, i)
    ensures ScannedUpTo(ScanStep(e, w, i), w, i + 1)
    ensures ScanStep(e, w, i).frames == e.frames + FramesIn(w[i])
  {
  }

  /**
   * The scan over the slots before `n`, in order. It finds a start and an
   * end exactly when one of those slots is filled; the start is the first
   * slot with the smallest time stamp, the end the first with the largest,
   * and the frame count is the total over the filled slots.
   */
  function ScanUpTo(w: Slots, n: nat): (r: Extremes)
    requires n <= |w|
    ensures r.start.None? <==> NoneFilledBefore(w, n)
    ensures r.end.None? <==> NoneFilledBefore(w, n)
    ensures r.start.Some? ==> IsFirstMinBefore(w, n, r.start.value)
    ensures r.end.Some? ==> IsFirstMaxBefore(w, n, r.end.value)
    ensures r.frames == FrameTotal(w[..n])
  {
    if n == 0 then Extremes(None, None, 0)
    else
      var p := ScanUpTo(w, n - 1);
      assert w[..n][..n - 1] == w[..n - 1];
      ScanStep(p, w, n - 1)
  }

  /** The scan over the whole window, as the aggregation runs it. */
  function Scan(w: Slots): (r: Extremes)
    ensures r.start.None? <==> NoneFilled(w)
    ensures r.end.None? <==> NoneFilled(w)
    ensures r.start.Some? ==> IsFirstMin(w, r.start.value)
    ensures r.end.Some? ==> IsFirstMax(w, r.end.value)
    ensures r.frames == FrameTotal(w)
  {
    assert w[..|w|] == w;
    ScanUpTo(w, |w|)
  }

  /** There is only one first minimum. */
  lemma FirstMinUnique(w: Slots, k1: int, k2: int)
    requires IsFirstMin(w, k1) && IsFirstMin(w, k2)
    ensures k1 == k2
  {
    var t1, t2 := w[k1].value.sampleTime, w[k2].value.sampleTime;
    assert k1 < k2 ==> t1 > t2;
    assert k2 < k1 ==> t2 > t1;
  }

  /** There is only one first maximum. */
  lemma FirstMaxUnique(w: Slots, k1: int, k2: int)
    requires IsFirstMax(w, k1) && IsFirstMax(w, k2)
    ensures k1 == k2
  {
    var t1, t2 := w[k1].value.sampleTime, w[k2].value.sampleTime;
    assert k1 < k2 ==> t1 < t2;
    assert k2 < k1 ==> t2 < t1;
  }

  // ---------------------------------------------------------------------
  // The ordering the window keeps between resizes

  /** The filled slots form a suffix: a slot is filled exactly when it is at or after the first filled one. */
  ghost predicate FilledSuffix(w: Slots)
  {
    forall i :: 0 <= i < |w| ==> (w[i].Some? <==> FirstFilled(w) <= i)
  }

  /** The time stamp of filled slot `i`. */
  function Stamp(w: Slots, i: int): int
    requires 0 <= i < |w| && w[i].Some?
  {
    w[i].value.sampleTime
  }

  /** The time stamps of the filled slots strictly increase from front to back. */
  ghost predicate StrictlyIncreasing(w: Slots)
  {
    forall i, j {:trigger Stamp(w, i), Stamp(w, j)} ::
      0 <= i < j < |w| && w[i].Some? && w[j].Some? ==> Stamp(w, i) < Stamp(w, j)
  }

  /** No filled slot is stamped later than `t`. */
  ghost predicate NotLaterThan(w: Slots, t: int)
  {
    forall i :: 0 <= i < |w| && w[i].Some? ==> w[i].value.sampleTime <= t
  }

  /** Every filled slot covers exactly one frame. */
  ghost predicate SingleFrames(w: Slots)
  {
    forall i :: 0 <= i < |w| && w[i].Some? ==> w[i].value.frameCount == 1
  }

  /** The ordering invariant: filled suffix, increasing times, none later than `last`, one frame each. */
  ghost predicate Ordered(w: Slots, last: int)
  {
    FilledSuffix(w) && StrictlyIncreasing(w) && NotLaterThan(w, last) && SingleFrames(w)
  }

  /** Pushing a sample stamped after `last` with one frame keeps the window ordered, up to the new stamp. */
  lemma PushKeepsOrdered(w: Slots, last: int, s: Sample)
    requires |w| >= 1 && Ordered(w, last)
    requires s.sampleTime > last && s.frameCount == 1
    ensures Ordered(Push(w, s), s.sampleTime)
  {
    var r := Push(w, s);
    var n := |w|;
    PushFirstFilled(w, s);
    forall i, j | 0 <= i < j < n && r[i].Some? && r[j].Some?
      ensures Stamp(r, i) < Stamp(r, j)
    {
      if j < n - 1 {
        assert Stamp(r, i) == Stamp(w, i + 1) && Stamp(r, j) == Stamp(w, j + 1);
      }
    }
  }

  /** The index of the first filled slot, or the length when none is filled. */
  function FirstFilled(w: Slots): (k: nat)
    ensures k <= |w|
    ensures forall j :: 0 <= j < k ==> w[j].None?
    ensures k < |w| ==> w[k].Some?
  {
    FirstFilledFrom(w, 0)
  }

  /** The index of the first filled slot at or after `i`, or the length when there is none. */
  function FirstFilledFrom(w: Slots, i: nat): (k: nat)
    requires i <= |w|
    ensures i <= k <= |w|
    ensures forall j :: i <= j < k ==> w[j].None?
    ensures k < |w| ==> w[k].Some?
    decreases |w| - i
  {
    if i == |w| then i
    else if w[i].Some? then i
    else FirstFilledFrom(w, i + 1)
  }

  /** A slot that is filled, or the end, with only empty slots before it is the first filled slot. */
  lemma FirstFilledIsFirst(w: Slots, k: nat)
    requires k <= |w| && (k < |w| ==> w[k].Some?)
    requires forall j :: 0 <= j < k ==> w[j].None?
    ensures FirstFilled(w) == k
  {
  }

  /** With a filled suffix, the filled slots are exactly those from the first filled one on. */
  lemma {:induction false} FilledCountOfSuffix(w: Slots)
    requires FilledSuffix(w)
    ensures FilledCount(w) == |w| - FirstFilled(w)
  {
    if |w| > 0 {
      var n := |w| - 1;
      var v := w[..n];
      var f := FirstFilled(w);
      assert forall i :: 0 <= i < n ==> v[i] == w[i];
      FirstFilledIsFirst(v, if f < n then f else n);
      assert FilledSuffix(v);
      FilledCountOfSuffix(v);
    }
  }

  /**
   * In an ordered window the scan's start is the first filled slot and its
   * end is the last slot, so the scan could equally have read them off by
   * position.
   */
  lemma OrderedScanEnds(w: Slots, last: int)
    requires Ordered(w, last) && !NoneFilled(w)
    ensures Scan(w).start == Some(FirstFilled(w))
    ensures Scan(w).end == Some(|w| - 1)
  {
    var k := Scan(w).start.value;
    var e := Scan(w).end.value;
    var f := FirstFilled(w);
    assert f <= k;
    assert w[f].Some? && w[|w| - 1].Some?;
    var tf, tk := Stamp(w, f), Stamp(w, k);
    var te, tl := Stamp(w, e), Stamp(w, |w| - 1);
    assert f < k ==> tf > tk;
    assert e < |w| - 1 ==> te < tl;
  }

  /** In an ordered window every filled slot holds one frame, so the frame total is the filled count. */
  lemma {:induction false} SingleFramesTotal(w: Slots)
    requires SingleFrames(w)
    ensures FrameTotal(w) == FilledCount(w)
  {
    if |w| > 0 {
      var v := w[..|w| - 1];
      assert SingleFrames(v) by {
        assert forall i :: 0 <= i < |v| ==> v[i] == w[i];
      }
      SingleFramesTotal(v);
    }
  }

  /** Pushing into a window with a filled suffix keeps it so, with the first filled slot one earlier. */
  lemma PushFirstFilled(w: Slots, s: Sample)
    requires |w| >= 1 && FilledSuffix(w)
    ensures FirstFilled(Push(w, s)) == if FirstFilled(w) == 0 then 0 else FirstFilled(w) - 1
    ensures FilledSuffix(Push(w, s))
  {
    var r := Push(w, s);
    var f := FirstFilled(w);
    FirstFilledIsFirst(r, if f == 0 then 0 else f - 1);
  }

  /**
   * Pushing into a window whose filled slots form a suffix fills one more
   * slot, up to the window length.
   */
  lemma PushFilledCount(w: Slots, s: Sample)
    requires |w| >= 1 && FilledSuffix(w)
    ensures FilledCount(Push(w, s)) == if FilledCount(w) < |w| then FilledCount(w) + 1 else |w|
  {
    PushFirstFilled(w, s);
    FilledCountOfSuffix(w);
    FilledCountOfSuffix(Push(w, s));
  }

  /** Pushing into an empty window leaves the new sample as the only filled slot, in the last position. */
  lemma PushIntoEmpty(w: Slots, s: Sample)
    requires |w| >= 1 && NoneFilled(w)
    ensures FirstFilled(Push(w, s)) == |w| - 1
    ensures FilledCount(Push(w, s)) == 1
  {
    FirstFilledIsFirst(w, |w|);
    PushFirstFilled(w, s);
    FilledCountOfSuffix(Push(w, s));
  }
}

=== FILE: wrappers.dfy ===
/** Failure-compatible helper datatypes shared by the other modules. */
module Wrappers {

  /** A value that may be absent; stands for a nullable reference or a nullable value. */
  datatype Option<+T> = None | Some(value: T)

  /** Either a successful value or an error; stands for a call that may throw. */
  datatype Result<+R, +E> = Success(value: R) | Failure(error: E)
}
